=== FILE: README.md ===
# find-up: the upward directory search, modelled in Dafny

This project models the upward directory search. The search starts in a
working directory and tests that directory, then its parent, and so on. It
stops at a boundary directory (`stopAt`), at a `limit`, or when a predicate
returns the `findUpStop` sentinel. `findUp.ts` also stops at the filesystem
root; `findUp.js` does not, and with a boundary that is not on the way up it
keeps testing the root (see Findings).

There are two implementations:

- `src/util/findUp.js`: `findUpMultiple`/`findUpMultipleSync`, which collect
  every match, and the `findUp`/`findUpSync` wrappers, which run the same loop
  with `limit: 1`. The criterion is a name, a list of names, or a predicate
  called with each directory. A predicate's string answer is checked for
  existence like a literal name. `limit` counts matches.
- `src/util/findUp.ts`: `findUpSync` with literal names only. It returns the
  first candidate that exists. `limit` counts parent steps, and the walk halts
  when `dirname(dir) === dir`.

Modules:

- `Wrappers` (`wrappers.dfy`): `Option`, which stands for `undefined`.
- `Paths` (`paths.dfy`): absolute paths as a root plus a sequence of names.
  It provides `Dirname` (a fixpoint at the root), `Join`, `Resolve` and
  `RootOf`. `Chain(dir, stopAt)` is the closed-form list of directories from
  `dir` up to the boundary, or up to the root when the boundary is not an
  ancestor.
- `Matcher` (`matcher.dfy`): `locate-path` as `LocatePath` (first existing
  name in list order), and `runMatcher` as `RunMatcher`.
- `Limits` (`limits.dfy`): the `limit` option and its `>=` test.
- `FindUpJs` (`find_up_js.dfy`): the match-collecting walk.
  - Its partner definitions are `Collect` and `UpToStop`: they evaluate a list
    of directories in order.
  - The loop exactly as written is `WalkAsWritten`; see Findings.
- `FindUpTs` (`find_up_ts.dfy`): the first-match walk.
  - Its partner definitions are `Window`, the chain cut at the depth limit,
    and `FirstFound`, the first candidate of the first directory in a list
    that holds one.

The filesystem is the set of paths whose existence check succeeds. The
root-guarded walks `Walk` and `WalkTs` return the directories they tested as
well as their result, so the contracts can state the following:
- the boundary is inclusive;
- nothing beyond a Stop is evaluated;
- the limit bounds the work done.

## Model

| member | source | states |
|---|---|---|
| Paths.RootOf | src/util/findUp.js:13 | `path.parse(dir).root` is a root, is an ancestor of `dir`, and is the only root among `dir`'s ancestors |
| Paths.Join | src/util/findUp.ts:30 | `path.join(dir, name)` for a single-segment name: the name appended below `dir`; its parts are stated by `JoinParts` |
| Paths.Dirname | src/util/findUp.ts:40-44 | the parent equals the directory exactly at the root (the fixpoint the TS guard tests); otherwise it is one level up and still an ancestor |
| Paths.JoinParts | src/util/findUp.ts:30 | `path.join(dir, name)` lies one level below `dir`: its parent is `dir`, its base name is `name`, and it is never a root |
| Paths.JoinDirnameBasename | src/util/findUp.js:63 | every non-root path is its base name joined onto its parent, so `Join` and (`Dirname`, `Basename`) are inverses |
| Paths.Resolve | src/util/findUp.js:12 | `path.resolve(base, arg)`: an absolute argument wins, `""` yields the base, and a relative one is the base with the relative names appended |
| Paths.Chain | src/util/findUp.js:59-66 | the directories an upward walk meets: `dir` first, each one level above the previous, ending at `stopAt` when that is an ancestor and at the root otherwise |
| Paths.ChainUnfold | src/util/findUp.js:64-65 | the closed-form chain equals the loop's step: it stops at the boundary or the root, and otherwise continues with the parent's chain |
| Paths.AncestorOfDirname | src/util/findUp.js:64-65 | a boundary strictly above the current directory is still an ancestor after the `dirname` step |
| Matcher.LocatePath | src/util/findUp.js:50 | `locatePathSync` returns none exactly when no name exists, and otherwise returns the first existing name in list order |
| Matcher.LocatePathIsFirst | src/util/findUp.ts:29-34 | when the name at index i exists and no earlier one does, that name is the one returned |
| Matcher.RunMatcher | src/util/findUp.js:48-57 | every reported name exists in the directory, and a Stop comes only from a predicate returning `findUpStop` |
| Matcher.RunMatcherNames | src/util/findUp.js:49-51 | with literal names, a directory matches exactly when some name exists there, the first existing name is reported, and it never stops |
| Matcher.RunMatcherPredicate | src/util/findUp.js:52-56 | a predicate's string matches exactly when that name exists and is reported unchanged; `undefined` or a missing name is no match |
| Limits.Reached | src/util/findUp.js:64 | the `>=` test of a count against `limit`, never met when no limit is given; findUp.ts:36 applies it to the depth |
| FindUpJs.ToPath | src/util/findUp.js:5-7 | a file URL becomes the path it decodes to; any other value passes unchanged |
| FindUpJs.StartDirectory | src/util/findUp.js:42 | a missing or empty `cwd` means the process directory, an absolute one is taken as is, and a relative one is the process directory with its names appended |
| FindUpJs.StopDirectory | src/util/findUp.js:43-44 | a missing `stopAt` means the start directory's root, `""` means the start directory itself, an absolute one is taken as is, and a relative one is the START directory with its names appended |
| FindUpJs.Walk | src/util/findUp.js:59-66 | the loop with the root guard added; its behaviour is stated by `WalkUnlimited`, `WalkCollects`, `WalkVisitsPrefix`, `WalkLimited` and `WalkEndReason` |
| FindUpJs.Search | src/util/findUp.js:41-69 | the guarded walk from the resolved start directory to the resolved boundary; stated by `FindUpMultipleStop` and `FindUpMultipleLimitZero` |
| FindUpJs.FindUpMultiple | src/util/findUp.js:41-69 | the guarded walk's matches; stated by `FindUpMultipleSound`, `FindUpMultipleLimited` and `FindUpMultipleAsWritten` |
| FindUpJs.FindUp | src/util/findUp.js:76-79 | element 0 of the search with `limit: 1`; stated by `FindUpIsFirstMatch` and `FindUpMultipleAsWritten` |
| FindUpJs.Collect | src/util/findUp.js:62-63 | the reference fold: the matches of a directory list evaluated in order up to the first Stop; related to the walk by `WalkUnlimited` and `WalkCollects` |
| FindUpJs.UpToStop | src/util/findUp.js:62 | the reference list of tested directories: a prefix of the list, ending at the first Stop |
| FindUpJs.FindUpMultipleLoop | src/util/findUp.js:59-68 | the `while (true)` loop with its two `break`s returns exactly the matches of the recursive walk |
| FindUpJs.WalkLast | src/util/findUp.js:62-64 | a Stop answer, the boundary, the root or a reached limit ends the walk after the current directory, and nothing is pushed for a Stop |
| FindUpJs.WalkStep | src/util/findUp.js:61-65 | otherwise the current directory's match, if any, is pushed and the walk continues in the parent |
| FindUpJs.LoopStep | src/util/findUp.js:61-65 | one pass of the loop body preserves the matches-so-far plus the remaining walk |
| FindUpJs.WalkStartsAtDir | src/util/findUp.js:61 | the start directory is the first one tested |
| FindUpJs.WalkUnlimited | src/util/findUp.js:59-66 | without a limit the walk tests the chain up to the first Stop, and returns what those directories contribute, in order |
| FindUpJs.WalkCollects | src/util/findUp.js:63 | under any limit, the matches are exactly the contributions of the tested directories, in test order |
| FindUpJs.WalkVisitsPrefix | src/util/findUp.js:64 | under any limit, the tested directories are a prefix of those the unlimited walk tests |
| FindUpJs.WalkVisitsChain | src/util/findUp.js:59-66 | both facts above together |
| FindUpJs.WalkStopOnlyLast | src/util/findUp.js:62 | no directory before the last tested one answered Stop |
| FindUpJs.WalkEndReason | src/util/findUp.js:62-64 | the last tested directory answered Stop, is the boundary, is the root, or brought the match count to the limit |
| FindUpJs.WalkLimited | src/util/findUp.js:63-64 | with `limit` n >= 1 the result is the first n matches of the unlimited walk, or all of them when there are fewer |
| FindUpJs.LimitMetAtStart | src/util/findUp.js:63-64 | when the limit is already met, only the start directory is tested and at most one match returns, because the limit is checked after the push |
| FindUpJs.CollectCons | src/util/findUp.js:62-63 | a Stop ends the evaluated list with no contribution; otherwise the head's match comes before the rest |
| FindUpJs.UpToStopCons | src/util/findUp.js:62 | the tested directories of a list run up to and including the first Stop |
| FindUpJs.CollectFromDirs | src/util/findUp.js:63 | each collected match lies in a listed directory and is the name the matcher reported there |
| FindUpJs.CollectOrdered | src/util/findUp.js:63-65 | matches gathered from a nearest-first list come out nearest first |
| FindUpJs.CollectBelow | src/util/findUp.js:62-63 | when every listed directory answers Stop or lies above a given level, every match comes from a directory above that level: a Stop directory contributes nothing |
| FindUpJs.MatchesNearestFirst | src/util/findUp.js:59-68 | the walk's matches come nearest first, each in a directory of the chain, with the name the matcher reported there |
| FindUpJs.UpToStopEndsAtStop | src/util/findUp.js:62 | no directory past the first Stop is tested |
| FindUpJs.UpToStopWithoutStop | src/util/findUp.js:62 | a list with no Stop is tested in full |
| FindUpJs.PrefixBeforeStop | src/util/findUp.js:62 | in a tested prefix ending no later than a Stop, every directory is that Stop or lies above it |
| FindUpJs.StopHalts | src/util/findUp.js:62 | a `findUpStop` answer at the k-th chain directory means at most k + 1 directories are tested, and every match lies strictly nearer than it |
| FindUpJs.BoundaryInclusive | src/util/findUp.js:64 | with no limit and no Stop, an ancestor boundary is tested, after every directory between, and is the last one tested |
| FindUpJs.BoundaryAtStart | src/util/findUp.js:64 | a boundary equal to the start directory means only that directory is tested |
| FindUpJs.FindUpMultipleSound | src/util/findUp.js:41-69 | every returned match exists, is the matcher's answer in a chain directory, and the matches come nearest first |
| FindUpJs.FindUpIsFirstMatch | src/util/findUp.js:76-79 | `findUpSync` returns the nearest match of the unlimited search, or `undefined` when that search finds nothing |
| FindUpJs.FindUpMultipleLimited | src/util/findUp.js:45 | with `limit` n >= 1: at most n matches, a prefix of the unlimited result, and all of it when fewer than n return |
| FindUpJs.FindUpMultipleLimitZero | src/util/findUp.js:64 | a `limit` of 0 or less still tests the start directory and returns at most its one match |
| FindUpJs.FindUpMultipleStop | src/util/findUp.js:62 | a predicate answering `findUpStop` at a chain directory prevents any farther directory from being tested and any match from it or beyond |
| FindUpJs.DefaultStopAtIsRoot | src/util/findUp.js:43-44 | without `stopAt` the boundary is the start directory's root, which is on the chain, so the whole chain to the root is in reach |
| FindUpJs.EmptyStopAtSearchesOnlyStart | src/util/findUp.js:44 | `stopAt: ""` is not nullish and resolves to the start directory, so only that directory is tested |
| FindUpJs.WalkAsWritten | src/util/findUp.js:60-66 | the loop without a root guard; its outcome is stated by `AsWrittenAgrees`, `AsWrittenSpinsAtRoot`, `SpinExample` and `RepeatedRootMatchExample` |
| FindUpJs.FindUpMultipleAsWritten | src/util/findUp.js:41-79 | with the boundary at or above the start, the loop as written returns `FindUpMultiple`'s matches, and `findUpSync` returns `FindUp`'s result |
| FindUpJs.AsWrittenAgrees | src/util/findUp.js:60-66 | with the boundary at or above the start, the loop as written ends, with the corrected walk's result |
| FindUpJs.AsWrittenSpinsAtRoot | src/util/findUp.js:60-66 | with a boundary off the chain, no limit and no Stop answer on the way up, the loop as written never ends, whether or not directories match |
| FindUpJs.RelativeStopAtOffChain | src/util/findUp.js:42-44 | a non-empty relative `stopAt` resolves below the start directory, so it is never the start directory or one of its ancestors |
| FindUpJs.RelativeStopAtSpinExample | src/util/findUp.js:42-66 | searching "package.json" from /a with `stopAt: "s"` on an empty filesystem never returns |
| FindUpJs.SpinExample | src/util/findUp.js:60-66 | searching "package.json" from /a with `stopAt` /b on an empty filesystem never returns |
| FindUpJs.RepeatedRootMatchExample | src/util/findUp.js:60-66 | the same search with /package.json present and `limit: 3` returns the root's match three times |
| FindUpJs.AsWrittenStep | src/util/findUp.js:61-65 | a pass of the loop as written that neither stops nor breaks puts the current match ahead of whatever the rest of the loop returns, and diverges when the rest does |
| FindUpJs.AsWrittenRepeatsAtRoot | src/util/findUp.js:63-65 | at the root, with a match there, a boundary elsewhere and `limit` n, the loop as written pushes the root's match once per pass until n matches are gathered |
| FindUpJs.CorrectedWalkReachesRoot | src/util/findUp.ts:40-44 | the corrected walk, with the boundary off the chain and no Stop, tests every directory up to the root and then ends |
| FindUpTs.Candidates | src/util/findUp.ts:21 | a single name becomes a one-element list; an array is used as given |
| FindUpTs.StartDir | src/util/findUp.ts:22 | a missing or empty `cwd` means the process directory, an absolute one is taken as is, and a relative one is the process directory with its names appended |
| FindUpTs.StopDir | src/util/findUp.ts:23-24 | a missing or empty (falsy) `stopAt` means the start directory's root, an absolute one is taken as is, and a relative one is the PROCESS directory with its names appended |
| FindUpTs.SearchTs | src/util/findUp.ts:20-48 | the whole search from the resolved start directory to the resolved boundary, with the directories searched; stated by `FindUpSyncDepthLimit`, `FindUpSyncWithinChain`, `FindUpSyncBoundaryInclusive` and `FindUpSyncHaltsAtRoot` |
| FindUpTs.WalkTs | src/util/findUp.ts:28-48 | the loop: candidates first, then the boundary and depth test, then the root fixpoint; stated by `WalkTsFindsFirst` and `WalkTsVisits` |
| FindUpTs.FindUpSync | src/util/findUp.ts:20-51 | the walk's result; stated by `FindUpSyncSpec`, `FindUpSyncExists` and `FindUpSyncLoop` |
| FindUpTs.FirstFound | src/util/findUp.ts:29-34 | the reference search of a directory list; stated by `FirstFoundNone` and `FirstFoundSome` |
| FindUpTs.Window | src/util/findUp.ts:36-38 | the searchable directories are a non-empty prefix of the chain, with at most limit − depth + 1 entries |
| FindUpTs.FirstFoundNone | src/util/findUp.ts:29-34 | searching a list of directories finds nothing exactly when none holds a candidate |
| FindUpTs.FirstFoundSome | src/util/findUp.ts:29-34 | what a search finds is the first existing candidate of the first directory that holds one |
| FindUpTs.WalkTsFoundHere | src/util/findUp.ts:29-33 | a directory holding a candidate ends the walk with the first one, in list order |
| FindUpTs.WalkTsLast | src/util/findUp.ts:36-44 | with no candidate, the boundary, the depth limit or the root ends the walk |
| FindUpTs.WalkTsStep | src/util/findUp.ts:46-47 | otherwise the walk continues in the parent one step deeper |
| FindUpTs.WindowUnfold | src/util/findUp.ts:36-47 | the window equals the loop's step: one directory at the boundary, the depth limit or the root, otherwise this directory followed by the parent's window |
| FindUpTs.WalkTsFindsFirst | src/util/findUp.ts:28-48 | the walk returns what searching its window nearest first returns |
| FindUpTs.WalkTsVisits | src/util/findUp.ts:28-50 | the searched directories are a prefix of the window, all of it when nothing is found; a found path lies in the last searched directory |
| FindUpTs.FindUpSyncSpec | src/util/findUp.ts:20-51 | `undefined` exactly when no directory in reach holds a candidate; otherwise the first existing candidate of the nearest directory that holds one |
| FindUpTs.FindUpSyncExists | src/util/findUp.ts:31-32 | a returned path exists |
| FindUpTs.FindUpSyncDepthLimit | src/util/findUp.ts:25 | with `limit` n >= 0 at most n parents are searched after the start, and with n <= 0 only the start |
| FindUpTs.FindUpSyncWithinChain | src/util/findUp.ts:36-38 | no searched directory lies beyond the boundary or the root |
| FindUpTs.FindUpSyncBoundaryInclusive | src/util/findUp.ts:36-38 | with the boundary at or above the start, no limit and nothing found, the whole chain up to the boundary is searched and the boundary is searched last |
| FindUpTs.FindUpSyncHaltsAtRoot | src/util/findUp.ts:40-44 | with a boundary off the chain, no limit and nothing found, every directory up to the root is searched and the walk ends |
| FindUpTs.StopDirResolution | src/util/findUp.ts:22-24 | a missing or empty `stopAt` means the root; a relative one is resolved against the process directory, not `cwd`; a missing or empty `cwd` means the process directory |
| FindUpTs.FindUpSyncLoop | src/util/findUp.ts:28-50 | the nested loops with their early returns compute exactly `findUpSync`'s result |

## Left out

- The async `findUpMultiple` and `findUp` (src/util/findUp.js:11-39, 71-74) are not modelled separately. They run the same steps as the sync variants and only await the matcher; no concurrency is modelled.
- The filesystem is an immutable set of existing paths. Actual I/O, symlinks, `locate-path`'s `type`/`allowSymlinks` options, and files changing during a walk are left out.
- Path strings are abstract. There is no separator syntax, `..`, trailing slash, drive-letter or case normalisation. Names are single segments, so a candidate containing `/` or `..` is not representable. The same holds for a predicate's string answer: the source accepts an absolute one (src/util/findUp.js:53-54, 63), which would land off the ancestor chain, so the chain and nearest-first claims of `FindUpMultipleSound` rely on answers being single names.
- `fileURLToPath` is not modelled: a URL option carries the path it decodes to.
- The empty string as a candidate name or predicate answer is outside the model. `path.join(dir, "")` names `dir` itself, and findUp.js then drops the falsy `""` at line 63.
- JavaScript truthiness is modelled only where it matters:
  - `stopAt: ""` is handled in each implementation;
  - a `limit` of `NaN` or a fractional value is not modelled (`Limit` holds an integer).
- A predicate criterion is a pure, total function of the directory. A predicate that throws, or keeps state and answers differently on different calls, is outside the model. The as-written loop calls it again at the root on every pass, so `WalkAsWritten`'s divergence and its repeated root match rely on the same answer each time.
- The rest of the repository is not part of this model, including `src/class/packageJsonProvider.ts`.
- FindUpJs.FindUpMultipleLoop requires the boundary to be the start directory or one of its ancestors. Without that, the loop as written may not terminate (see Findings), and a terminating method cannot model it. The requires also excludes off-chain inputs on which the source does end: a Stop on the way up, or a match limit that is met, as in `findUpSync` with any match or `RepeatedRootMatchExample`. `WalkAsWritten` covers all off-chain inputs.
- findUp.js has no root guard. `Walk`, and so `Search`, `FindUpMultiple` and `FindUp`, add one. `WalkAsWritten` is the loop as written. `AsWrittenAgrees` and `FindUpMultipleAsWritten` show the two agree when `stopAt` is the start directory or one of its ancestors, which includes a missing `stopAt`.
- FindUpJs.FindUpMultipleSound: describes the root-guarded walk. With `stopAt` off the chain, the source can return the root's match several times, which is not nearest first (`RepeatedRootMatchExample`).
- FindUpJs.FindUpIsFirstMatch: describes the root-guarded walk. With `stopAt` off the chain and nothing found, the source's `findUpSync` never returns (`AsWrittenSpinsAtRoot`), while `FindUp` returns None.
- FindUpJs.FindUpMultipleLimited: describes the root-guarded walk. With `stopAt` off the chain, the source's limited result can repeat the root match, and its unlimited run may never return.

## Findings

| source | as written | input that shows it | evidently intended | confidence | as-written member | corrected member |
|---|---|---|---|---|---|---|
| src/util/findUp.js:60-66 | the loop breaks only on Stop, on `directory === stopAt` or on the match limit; at the root `path.dirname` returns the root itself | `cwd` /a, `stopAt` /b, no limit and no Stop: the loop never ends, with or without matches (no `package.json` anywhere, for one); the same for any non-empty relative `stopAt`, which resolves below the start directory (`stopAt: "s"` from /a); with /package.json present and `limit: 3` it returns `/package.json` three times | halt at the root, as `findUp.ts` does at lines 40-44 | medium, not executed | FindUpJs.AsWrittenSpinsAtRoot | FindUpJs.CorrectedWalkReachesRoot |

=== FILE: find_up_js.dfy ===
/** The match-collecting upward search of `src/util/findUp.js`:
    `findUpMultiple`/`findUpMultipleSync` (one model: the async variant only
    awaits the same steps), the `findUp`/`findUpSync` wrappers and `toPath`.

    Here `limit` caps the number of MATCHES. The loop as written has no root
    guard, so `WalkAsWritten` keeps its behaviour when the boundary is not on
    the ancestor chain, and `Walk` is the corrected walk that halts at the root
    as well; the two agree whenever the boundary is the start directory or one
    of its ancestors, which includes the default boundary. */
module FindUpJs {
  import opened Wrappers
  import opened Paths
  import opened Matcher
  import opened Limits

  /** A `cwd`/`stopAt` option value: a plain path string or a file URL object.
      Decoding a URL (`fileURLToPath`) is outside the model, so a URL value
      is represented by the path it decodes to. */
  datatype PathLike = Plain(arg: PathArg) | FileUrl(decoded: PathArg)

  /** `toPath`: a URL becomes the path it names; anything else is unchanged. */
  function ToPath(v: PathLike): (r: PathArg)
    ensures v.Plain? ==> r == v.arg
    ensures v.FileUrl? ==> r == v.decoded
  {
    match v
    case Plain(a) => a
    case FileUrl(d) => d
  }

  /** The options object; `limit` is `Infinite` when the option is absent. */
  datatype Options = Options(cwd: Option<PathLike>, stopAt: Option<PathLike>, limit: Limit)

  /** One walk: the matches in discovery order and the directories handed to
      the matcher, in the order they were handed over. */
  datatype Run = Run(matches: seq<Path>, visited: seq<Path>)

  /** What one matcher answer appends to the match list. */
  function Contribution(dir: Path, found: MatchResult): seq<Path> {
    if found.Found? then [Join(dir, found.name)] else []
  }

  /** The loop of `findUpMultiple` from `dir` with `count` matches already
      collected, with a root guard added (see `WalkAsWritten` for the loop
      exactly as written). */
  function Walk(answer: Path -> MatchResult, dir: Path, stopAt: Path, limit: Limit, count: nat): Run
    decreases |dir.segs|
  {
    var found := answer(dir);
    if found.Stop? then Run([], [dir])
    else
      var here := Contribution(dir, found);
      if dir == stopAt || Reached(limit, count + |here|) || IsRoot(dir) then Run(here, [dir])
      else
        var rest := Walk(answer, Dirname(dir), stopAt, limit, count + |here|);
        Run(here + rest.matches, [dir] + rest.visited)
  }

  // ---------------------------------------------------------------------------
  // Reference definitions: evaluating a list of directories in order

  /** The matches gathered by testing `dirs` in order until the first Stop,
      which contributes nothing and ends the list. */
  function Collect(answer: Path -> MatchResult, dirs: seq<Path>): seq<Path> {
    if dirs == [] then []
    else
      var found := answer(dirs[0]);
      if found.Stop? then [] else Contribution(dirs[0], found) + Collect(answer, dirs[1..])
  }

  /** The directories of `dirs` that get tested: all of them up to and
      including the first one whose answer is Stop. */
  function UpToStop(answer: Path -> MatchResult, dirs: seq<Path>): (r: seq<Path>)
    ensures r <= dirs
  {
    if dirs == [] then []
    else if answer(dirs[0]).Stop? then [dirs[0]]
    else [dirs[0]] + UpToStop(answer, dirs[1..])
  }

  /** Directories listed strictly nearest first: each one is higher up than
      the ones before it. */
  predicate NearestFirst(ps: seq<Path>) {
    forall i, j :: 0 <= i < j < |ps| ==> |ps[j].segs| < |ps[i].segs|
  }

  // ---------------------------------------------------------------------------
  // Entry points

  /** The start directory: `path.resolve(toPath(cwd) ?? "")`. A missing or
      empty `cwd` means the process directory, a relative one lies below it. */
  function StartDirectory(processCwd: Path, opts: Options): (r: Path)
    ensures opts.cwd.None? ==> r == processCwd
    ensures opts.cwd.Some? && ToPath(opts.cwd.value).Empty? ==> r == processCwd
    ensures opts.cwd.Some? && ToPath(opts.cwd.value).Abs? ==> r == ToPath(opts.cwd.value).path
    ensures opts.cwd.Some? && ToPath(opts.cwd.value).Rel? ==>
      r == Path(processCwd.root, processCwd.segs + ToPath(opts.cwd.value).rel)
  {
    Resolve(processCwd, match opts.cwd case None => Empty case Some(v) => ToPath(v))
  }

  /** The boundary: `path.resolve(directory, toPath(stopAt) ?? root)`; a
      relative boundary is resolved against the start directory. */
  function StopDirectory(processCwd: Path, opts: Options): (r: Path)
    ensures opts.stopAt.None? ==> r == RootOf(StartDirectory(processCwd, opts))
    ensures opts.stopAt.Some? && ToPath(opts.stopAt.value).Empty? ==> r == StartDirectory(processCwd, opts)
    ensures opts.stopAt.Some? && ToPath(opts.stopAt.value).Abs? ==> r == ToPath(opts.stopAt.value).path
    ensures opts.stopAt.Some? && ToPath(opts.stopAt.value).Rel? ==>
      var start := StartDirectory(processCwd, opts);
      r == Path(start.root, start.segs + ToPath(opts.stopAt.value).rel)
  {
    var dir := StartDirectory(processCwd, opts);
    Resolve(dir, match opts.stopAt case None => Abs(RootOf(dir)) case Some(v) => ToPath(v))
  }

  /** `runMatcher` as the answer function the walk consults. */
  function Tester(fs: set<Path>, crit: Criterion): Path -> MatchResult {
    d => RunMatcher(fs, crit, d)
  }

  /** The whole walk `findUpMultiple` performs for `opts`, with the root guard
      of `Walk`: it is the source's walk whenever the boundary is the start
      directory or an ancestor of it (`FindUpMultipleAsWritten`). */
  function Search(fs: set<Path>, processCwd: Path, crit: Criterion, opts: Options): Run {
    Walk(Tester(fs, crit), StartDirectory(processCwd, opts), StopDirectory(processCwd, opts), opts.limit, 0)
  }

  /** `findUpMultiple` / `findUpMultipleSync` with the root guard added: every
      match from the start directory up to the boundary or the root. */
  function FindUpMultiple(fs: set<Path>, processCwd: Path, crit: Criterion, opts: Options): seq<Path> {
    Search(fs, processCwd, crit, opts).matches
  }

  /** `findUp` / `findUpSync`: element 0 of the search run with `limit: 1`,
      or None (`undefined`) when that run found nothing; with the root guard,
      like `FindUpMultiple`. */
  function FindUp(fs: set<Path>, processCwd: Path, crit: Criterion, opts: Options): Option<Path> {
    var ms := FindUpMultiple(fs, processCwd, crit, opts.(limit := Finite(1)));
    if |ms| > 0 then Some(ms[0]) else None
  }

  /** `findUpMultipleSync` as the source writes it: a `while (true)` loop that
      pushes onto `matches` and breaks on Stop, on the boundary or on the limit.
      It needs the boundary to be the start directory or an ancestor of it,
      because without that the loop may never end (see `AsWrittenSpinsAtRoot`). */
  method FindUpMultipleLoop(fs: set<Path>, processCwd: Path, crit: Criterion, opts: Options)
    returns (matches: seq<Path>)
    requires AncestorOrSelf(StopDirectory(processCwd, opts), StartDirectory(processCwd, opts))
    ensures matches == FindUpMultiple(fs, processCwd, crit, opts)
  {
    var directory := StartDirectory(processCwd, opts);
    var stopAt := StopDirectory(processCwd, opts);
    var limit := opts.limit;
    ghost var answer := Tester(fs, crit);
    matches := [];
    while true
      invariant AncestorOrSelf(stopAt, directory)
      invariant matches + Walk(answer, directory, stopAt, limit, |matches|).matches
                == FindUpMultiple(fs, processCwd, crit, opts)
      decreases |directory.segs|
    {
      var foundPath := RunMatcher(fs, crit, directory);
      assert answer(directory) == foundPath;
      ghost var before := matches;
      if foundPath.Stop? {
        WalkLast(answer, directory, stopAt, limit, |before|);
        break;
      }
      if foundPath.Found? {
        matches := matches + [Join(directory, foundPath.name)];
      }
      assert matches == before + Contribution(directory, foundPath);
      if directory == stopAt || Reached(limit, |matches|) {
        WalkLast(answer, directory, stopAt, limit, |before|);
        break;
      }
      AncestorOfDirname(stopAt, directory);
      LoopStep(answer, directory, stopAt, limit, before);
      directory := Dirname(directory);
    }
  }

  // ---------------------------------------------------------------------------
  // Step equations: one loop iteration of the walk, one element of a list

  /** The iteration that ends the walk: a Stop answer, the boundary, the root,
      or a match count that has reached the limit. */
  lemma WalkLast(answer: Path -> MatchResult, dir: Path, stopAt: Path, limit: Limit, count: nat)
    requires || answer(dir).Stop? || dir == stopAt || IsRoot(dir)
             || Reached(limit, count + |Contribution(dir, answer(dir))|)
    ensures Walk(answer, dir, stopAt, limit, count)
            == Run(if answer(dir).Stop? then [] else Contribution(dir, answer(dir)), [dir])
  {
  }

  /** An iteration that moves on to the parent directory. */
  lemma WalkStep(answer: Path -> MatchResult, dir: Path, stopAt: Path, limit: Limit, count: nat)
    requires && !answer(dir).Stop? && dir != stopAt && !IsRoot(dir)
             && !Reached(limit, count + |Contribution(dir, answer(dir))|)
    ensures var here := Contribution(dir, answer(dir));
      var rest := Walk(answer, Dirname(dir), stopAt, limit, count + |here|);
      Walk(answer, dir, stopAt, limit, count) == Run(here + rest.matches, [dir] + rest.visited)
  {
  }

  /** One pass of the loop body, with the matches gathered so far in `before`. */
  lemma LoopStep(answer: Path -> MatchResult, dir: Path, stopAt: Path, limit: Limit, before: seq<Path>)
    requires && !answer(dir).Stop? && dir != stopAt && !IsRoot(dir)
             && !Reached(limit, |before| + |Contribution(dir, answer(dir))|)
    ensures var after := before + Contribution(dir, answer(dir));
      before + Walk(answer, dir, stopAt, limit, |before|).matches
      == after + Walk(answer, Dirname(dir), stopAt, limit, |after|).matches
  {
    WalkStep(answer, dir, stopAt, limit, |before|);
    var here := Contribution(dir, answer(dir));
    var rest := Walk(answer, Dirname(dir), stopAt, limit, |before| + |here|).matches;
    assert before + (here + rest) == (before + here) + rest;
  }
  /** `Collect` on a list with a known first element. */
  lemma CollectCons(answer: Path -> MatchResult, d: Path, ds: seq<Path>)
    ensures Collect(answer, [d] + ds)
            == if answer(d).Stop? then [] else Contribution(d, answer(d)) + Collect(answer, ds)
  {
    assert ([d] + ds)[1..] == ds;
  }

  /** `UpToStop` on a list with a known first element. */
  lemma UpToStopCons(answer: Path -> MatchResult, d: Path, ds: seq<Path>)
    ensures UpToStop(answer, [d] + ds) == if answer(d).Stop? then [d] else [d] + UpToStop(answer, ds)
  {
    assert ([d] + ds)[1..] == ds;
  }

  /** The first directory the walk tests is `dir` itself. */
  lemma WalkStartsAtDir(answer: Path -> MatchResult, dir: Path, stopAt: Path, limit: Limit, count: nat)
    ensures var r := Walk(answer, dir, stopAt, limit, count);
      |r.visited| >= 1 && r.visited[0] == dir
  {
  }

  // ---------------------------------------------------------------------------
  // Properties of the walk

  /** Without a limit the walk tests the chain from `dir` up to the boundary
      (or the root) until the first Stop, and returns exactly what those
      directories contribute, in order. */
  lemma {:induction false} WalkUnlimited(answer: Path -> MatchResult, dir: Path, stopAt: Path, count: nat)
    ensures Walk(answer, dir, stopAt, Infinite, count)
            == Run(Collect(answer, Chain(dir, stopAt)), UpToStop(answer, Chain(dir, stopAt)))
    decreases |dir.segs|
  {
    ChainUnfold(dir, stopAt);
    var ch := Chain(dir, stopAt);
    var found := answer(dir);
    if dir == stopAt || IsRoot(dir) {
      WalkLast(answer, dir, stopAt, Infinite, count);
      assert ch == [dir] + [];
      CollectCons(answer, dir, []);
      UpToStopCons(answer, dir, []);
    } else {
      var tail := Chain(Dirname(dir), stopAt);
      CollectCons(answer, dir, tail);
      UpToStopCons(answer, dir, tail);
      if found.Stop? {
        WalkLast(answer, dir, stopAt, Infinite, count);
      } else {
        var here := Contribution(dir, found);
        WalkStep(answer, dir, stopAt, Infinite, count);
        WalkUnlimited(answer, Dirname(dir), stopAt, count + |here|);
      }
    }
  }

  /** Under any limit the matches are exactly what the tested directories
      contribute, in the order they were tested. */
  lemma WalkCollects(answer: Path -> MatchResult, dir: Path, stopAt: Path, limit: Limit, count: nat)
    ensures var r := Walk(answer, dir, stopAt, limit, count);
      r.matches == Collect(answer, r.visited)
  {
    CollectsVisitedHolds(answer, dir, stopAt, limit, count);
  }

  /** The walk's matches are what its tested directories contribute. */
  predicate CollectsVisited(answer: Path -> MatchResult, dir: Path, stopAt: Path, limit: Limit, count: nat) {
    var r := Walk(answer, dir, stopAt, limit, count);
    r.matches == Collect(answer, r.visited)
  }

  /** By induction along the walk, one iteration at a time. */
  lemma {:induction false} CollectsVisitedHolds(answer: Path -> MatchResult, dir: Path, stopAt: Path, limit: Limit, count: nat)
    ensures CollectsVisited(answer, dir, stopAt, limit, count)
    decreases |dir.segs|
  {
    var here := Contribution(dir, answer(dir));
    if !EndsAt(answer, dir, stopAt, limit, count + |here|) {
      CollectsVisitedHolds(answer, Dirname(dir), stopAt, limit, count + |here|);
    }
    CollectsUnfold(answer, dir, stopAt, limit, count);
  }

  /** One iteration gathers what `Collect` gathers at its directory, and the
      rest of the walk the rest. */
  lemma CollectsUnfold(answer: Path -> MatchResult, dir: Path, stopAt: Path, limit: Limit, count: nat)
    requires var here := Contribution(dir, answer(dir));
      EndsAt(answer, dir, stopAt, limit, count + |here|) || CollectsVisited(answer, Dirname(dir), stopAt, limit, count + |here|)
    ensures CollectsVisited(answer, dir, stopAt, limit, count)
  {
    var found := answer(dir);
    var here := Contribution(dir, found);
    var r := Walk(answer, dir, stopAt, limit, count);
    CollectCons(answer, dir, []);
    assert [dir] + [] == [dir];
    if found.Stop? {
      WalkLast(answer, dir, stopAt, limit, count);
      assert r == Run([], [dir]);
    } else if dir == stopAt || IsRoot(dir) || Reached(limit, count + |here|) {
      WalkLast(answer, dir, stopAt, limit, count);
      assert r == Run(here, [dir]);
      assert here + [] == here;
    } else {
      WalkStep(answer, dir, stopAt, limit, count);
      var rest := Walk(answer, Dirname(dir), stopAt, limit, count + |here|);
      CollectCons(answer, dir, rest.visited);
      assert r == Run(here + rest.matches, [dir] + rest.visited);
    }
  }

  /** Under any limit the tested directories are a prefix of those the
      unlimited walk tests. */
  lemma WalkVisitsPrefix(answer: Path -> MatchResult, dir: Path, stopAt: Path, limit: Limit, count: nat)
    ensures Walk(answer, dir, stopAt, limit, count).visited <= UpToStop(answer, Chain(dir, stopAt))
  {
    VisitsUpToStopHolds(answer, dir, stopAt, limit, count);
  }

  /** The walk from `dir` tests a prefix of the directories up to the stop
      marker on its chain. */
  predicate VisitsUpToStop(answer: Path -> MatchResult, dir: Path, stopAt: Path, limit: Limit, count: nat) {
    Walk(answer, dir, stopAt, limit, count).visited <= UpToStop(answer, Chain(dir, stopAt))
  }

  /** By induction along the walk, one iteration at a time. */
  lemma {:induction false} VisitsUpToStopHolds(answer: Path -> MatchResult, dir: Path, stopAt: Path, limit: Limit, count: nat)
    ensures VisitsUpToStop(answer, dir, stopAt, limit, count)
    decreases |dir.segs|
  {
    var here := Contribution(dir, answer(dir));
    if EndsAt(answer, dir, stopAt, limit, count + |here|) {
      VisitsPrefixLast(answer, dir, stopAt, limit, count);
    } else {
      VisitsUpToStopHolds(answer, Dirname(dir), stopAt, limit, count + |here|);
      VisitsPrefixStep(answer, dir, stopAt, limit, count);
    }
  }

  /** The halting iteration visits only `dir`, the head of its chain. */
  lemma VisitsPrefixLast(answer: Path -> MatchResult, dir: Path, stopAt: Path, limit: Limit, count: nat)
    requires EndsAt(answer, dir, stopAt, limit, count + |Contribution(dir, answer(dir))|)
    ensures VisitsUpToStop(answer, dir, stopAt, limit, count)
  {
    ChainUnfold(dir, stopAt);
    WalkLast(answer, dir, stopAt, limit, count);
    assert [dir] == [dir] + [];
    if dir == stopAt || IsRoot(dir) {
      VisitsPrefixCons(answer, dir, [], [dir], []);
    } else {
      VisitsPrefixCons(answer, dir, Chain(Dirname(dir), stopAt), [dir], []);
    }
  }

  /** An iteration that moves on keeps the visits a prefix when the rest of
      the walk does. */
  lemma VisitsPrefixStep(answer: Path -> MatchResult, dir: Path, stopAt: Path, limit: Limit, count: nat)
    requires !EndsAt(answer, dir, stopAt, limit, count + |Contribution(dir, answer(dir))|)
    requires VisitsUpToStop(answer, Dirname(dir), stopAt, limit, count + |Contribution(dir, answer(dir))|)
    ensures VisitsUpToStop(answer, dir, stopAt, limit, count)
  {
    ChainUnfold(dir, stopAt);
    WalkStep(answer, dir, stopAt, limit, count);
    var here := Contribution(dir, answer(dir));
    var rest := Walk(answer, Dirname(dir), stopAt, limit, count + |here|);
    VisitsPrefixCons(answer, dir, Chain(Dirname(dir), stopAt), [dir] + rest.visited, rest.visited);
  }

  /** One step of the walk keeps its visits a prefix of the directories up to
      the stop marker: either it halts at `d`, or it passed `d` (which was not
      the stop marker) and its further visits are such a prefix of the rest. */
  lemma VisitsPrefixCons(answer: Path -> MatchResult, d: Path, tail: seq<Path>, vs: seq<Path>, rest: seq<Path>)
    requires vs == [d] + rest
    requires rest == [] || (!answer(d).Stop? && rest <= UpToStop(answer, tail))
    ensures vs <= UpToStop(answer, [d] + tail)
  {
    assert ([d] + tail)[1..] == tail;
    var u := UpToStop(answer, tail);
    if rest != [] {
      assert ([d] + u)[..|rest| + 1] == [d] + u[..|rest|];
    } else {
      assert vs == [d];
    }
  }

  /** Both facts together: a prefix of the unlimited walk's directories, and
      the matches they contribute. */
  lemma WalkVisitsChain(answer: Path -> MatchResult, dir: Path, stopAt: Path, limit: Limit, count: nat)
    ensures var r := Walk(answer, dir, stopAt, limit, count);
      r.visited <= UpToStop(answer, Chain(dir, stopAt)) && r.matches == Collect(answer, r.visited)
  {
    WalkVisitsPrefix(answer, dir, stopAt, limit, count);
    WalkCollects(answer, dir, stopAt, limit, count);
  }

  /** Only the last tested directory can have answered Stop. */
  lemma {:induction false} WalkStopOnlyLast(answer: Path -> MatchResult, dir: Path, stopAt: Path, limit: Limit, count: nat)
    ensures var r := Walk(answer, dir, stopAt, limit, count);
      forall k :: 0 <= k < |r.visited| - 1 ==> !answer(r.visited[k]).Stop?
    decreases |dir.segs|
  {
    var found := answer(dir);
    var here := Contribution(dir, found);
    if found.Stop? || dir == stopAt || IsRoot(dir) || Reached(limit, count + |here|) {
      WalkLast(answer, dir, stopAt, limit, count);
    } else {
      WalkStep(answer, dir, stopAt, limit, count);
      var rest := Walk(answer, Dirname(dir), stopAt, limit, count + |here|);
      WalkStopOnlyLast(answer, Dirname(dir), stopAt, limit, count + |here|);
      var vs := [dir] + rest.visited;
      forall k | 0 <= k < |vs| - 1
        ensures !answer(vs[k]).Stop?
      {
        if k > 0 {
          assert vs[k] == rest.visited[k - 1];
        }
      }
    }
  }

  /** The loop's reasons to end at directory `d` with `total` matches: Stop,
      the boundary, the match limit, or the root. */
  predicate EndsAt(answer: Path -> MatchResult, d: Path, stopAt: Path, limit: Limit, total: int) {
    answer(d).Stop? || d == stopAt || Reached(limit, total) || IsRoot(d)
  }

  /** The walk ended at its last tested directory for one of the loop's
      reasons: Stop, the boundary, the match limit, or the root. */
  lemma WalkEndReason(answer: Path -> MatchResult, dir: Path, stopAt: Path, limit: Limit, count: nat)
    ensures var r := Walk(answer, dir, stopAt, limit, count);
      |r.visited| >= 1 && EndsAt(answer, r.visited[|r.visited| - 1], stopAt, limit, count + |r.matches|)
  {
    EndsForReasonHolds(answer, dir, stopAt, limit, count);
  }

  /** The walk from `dir` ends at its last tested directory for one of the
      loop's reasons. */
  predicate EndsForReason(answer: Path -> MatchResult, dir: Path, stopAt: Path, limit: Limit, count: nat) {
    var r := Walk(answer, dir, stopAt, limit, count);
    |r.visited| >= 1 && EndsAt(answer, r.visited[|r.visited| - 1], stopAt, limit, count + |r.matches|)
  }

  /** By induction along the walk, one iteration at a time. */
  lemma {:induction false} EndsForReasonHolds(answer: Path -> MatchResult, dir: Path, stopAt: Path, limit: Limit, count: nat)
    ensures EndsForReason(answer, dir, stopAt, limit, count)
    decreases |dir.segs|
  {
    var here := Contribution(dir, answer(dir));
    if !EndsAt(answer, dir, stopAt, limit, count + |here|) {
      EndsForReasonHolds(answer, Dirname(dir), stopAt, limit, count + |here|);
    }
    EndReasonUnfold(answer, dir, stopAt, limit, count);
  }

  /** One iteration: the walk ends at `dir` for one of the loop's reasons, or
      moves on and ends where the rest of the walk ends. */
  lemma EndReasonUnfold(answer: Path -> MatchResult, dir: Path, stopAt: Path, limit: Limit, count: nat)
    requires var here := Contribution(dir, answer(dir));
      EndsAt(answer, dir, stopAt, limit, count + |here|) || EndsForReason(answer, Dirname(dir), stopAt, limit, count + |here|)
    ensures EndsForReason(answer, dir, stopAt, limit, count)
  {
    var found := answer(dir);
    var here := Contribution(dir, found);
    var r := Walk(answer, dir, stopAt, limit, count);
    if found.Stop? {
      WalkLast(answer, dir, stopAt, limit, count);
      assert r == Run([], [dir]);
    } else if dir == stopAt || IsRoot(dir) || Reached(limit, count + |here|) {
      WalkLast(answer, dir, stopAt, limit, count);
      assert r == Run(here, [dir]);
    } else {
      WalkStep(answer, dir, stopAt, limit, count);
      var rest := Walk(answer, Dirname(dir), stopAt, limit, count + |here|);
      EndsAtCons(answer, dir, here, rest, stopAt, limit, count);
      assert r == Run(here + rest.matches, [dir] + rest.visited);
    }
  }

  /** Putting a directory and its matches in front of a run keeps the run's
      last directory and its reason to end there. */
  lemma EndsAtCons(answer: Path -> MatchResult, dir: Path, here: seq<Path>, rest: Run, stopAt: Path, limit: Limit, count: int)
    requires |rest.visited| >= 1
    requires EndsAt(answer, rest.visited[|rest.visited| - 1], stopAt, limit, count + |here| + |rest.matches|)
    ensures var r := Run(here + rest.matches, [dir] + rest.visited);
      |r.visited| >= 1 && EndsAt(answer, r.visited[|r.visited| - 1], stopAt, limit, count + |r.matches|)
  {
    assert ([dir] + rest.visited)[|rest.visited|] == rest.visited[|rest.visited| - 1];
  }

  /** With a limit of `n >= 1` matches the result is the first `n` matches of
      the unlimited walk (all of them when there are fewer). */
  lemma WalkLimited(answer: Path -> MatchResult, dir: Path, stopAt: Path, n: int, count: nat)
    requires n - count >= 1
    ensures var all := Walk(answer, dir, stopAt, Infinite, count).matches;
      Walk(answer, dir, stopAt, Finite(n), count).matches == all[..Min(n - count, |all|)]
  {
    LimitedPrefixHolds(answer, dir, stopAt, n, count);
  }

  /** With room for at least one more match, the limited walk returns the
      unlimited walk's first `n - count` matches. */
  predicate LimitedPrefix(answer: Path -> MatchResult, dir: Path, stopAt: Path, n: int, count: nat) {
    n - count >= 1 ==>
      var all := Walk(answer, dir, stopAt, Infinite, count).matches;
      Walk(answer, dir, stopAt, Finite(n), count).matches == all[..Min(n - count, |all|)]
  }

  /** By induction along the walk, one iteration at a time. */
  lemma {:induction false} LimitedPrefixHolds(answer: Path -> MatchResult, dir: Path, stopAt: Path, n: int, count: nat)
    ensures LimitedPrefix(answer, dir, stopAt, n, count)
    decreases |dir.segs|
  {
    var here := Contribution(dir, answer(dir));
    if !EndsAt(answer, dir, stopAt, Finite(n), count + |here|) {
      LimitedPrefixHolds(answer, Dirname(dir), stopAt, n, count + |here|);
    }
    LimitedUnfold(answer, dir, stopAt, n, count);
  }

  /** One iteration of the limited walk: it halts with the unlimited walk's
      first matches, or moves on and keeps to the rest of them. */
  lemma LimitedUnfold(answer: Path -> MatchResult, dir: Path, stopAt: Path, n: int, count: nat)
    requires var here := Contribution(dir, answer(dir));
      EndsAt(answer, dir, stopAt, Finite(n), count + |here|) || LimitedPrefix(answer, Dirname(dir), stopAt, n, count + |here|)
    ensures LimitedPrefix(answer, dir, stopAt, n, count)
  {
    if n - count >= 1 {
      var found := answer(dir);
      var here := Contribution(dir, found);
      if found.Stop? || dir == stopAt || IsRoot(dir) {
        WalkLast(answer, dir, stopAt, Infinite, count);
        WalkLast(answer, dir, stopAt, Finite(n), count);
      } else if Reached(Finite(n), count + |here|) {
        WalkLast(answer, dir, stopAt, Finite(n), count);
        WalkStep(answer, dir, stopAt, Infinite, count);
      } else {
        WalkStep(answer, dir, stopAt, Infinite, count);
        WalkStep(answer, dir, stopAt, Finite(n), count);
        var tail := Walk(answer, Dirname(dir), stopAt, Infinite, count + |here|).matches;
        var k := Min(n - count - |here|, |tail|);
        assert (here + tail)[..Min(n - count, |here + tail|)] == here + tail[..k];
      }
    }
  }

  /** A limit already met (`limit <= 0` on entry) stops the walk after the
      first directory, so at most one match comes back: the limit is checked
      only after the push. */
  lemma LimitMetAtStart(answer: Path -> MatchResult, dir: Path, stopAt: Path, n: int, count: nat)
    requires n <= count
    ensures var r := Walk(answer, dir, stopAt, Finite(n), count);
      r.visited == [dir] && |r.matches| <= 1
  {
    WalkLast(answer, dir, stopAt, Finite(n), count);
  }

  /** Each match gathered from a directory list lies in one of the listed
      directories and is exactly the name the answer gave there. */
  lemma {:induction false} CollectFromDirs(answer: Path -> MatchResult, dirs: seq<Path>)
    ensures var m := Collect(answer, dirs);
      forall i :: 0 <= i < |m| ==>
        && !IsRoot(m[i])
        && Dirname(m[i]) in dirs
        && answer(Dirname(m[i])) == Found(Basename(m[i]))
  {
    if dirs != [] {
      assert dirs == [dirs[0]] + dirs[1..];
      CollectCons(answer, dirs[0], dirs[1..]);
      CollectFromDirs(answer, dirs[1..]);
    }
  }

  /** The matches gathered from a nearest-first directory list are nearest
      first too, and none lies below the first listed directory. */
  lemma {:induction false} CollectOrdered(answer: Path -> MatchResult, dirs: seq<Path>)
    requires NearestFirst(dirs)
    ensures NearestFirst(Collect(answer, dirs))
    ensures dirs != [] ==>
      forall i :: 0 <= i < |Collect(answer, dirs)| ==> |Collect(answer, dirs)[i].segs| <= |dirs[0].segs| + 1
  {
    if dirs != [] {
      assert dirs == [dirs[0]] + dirs[1..];
      CollectCons(answer, dirs[0], dirs[1..]);
      var m := Collect(answer, dirs);
      if !answer(dirs[0]).Stop? {
        var here := Contribution(dirs[0], answer(dirs[0]));
        var rest := Collect(answer, dirs[1..]);
        CollectOrdered(answer, dirs[1..]);
        assert forall i :: 0 <= i < |rest| ==> |rest[i].segs| < |dirs[0].segs| + 1;
        forall i, j | 0 <= i < j < |m|
          ensures |m[j].segs| < |m[i].segs|
        {
          assert m[j] == rest[j - |here|];
          if i >= |here| {
            assert m[i] == rest[i - |here|];
          }
        }
      }
    }
  }

  /** The walk's order promise: matches come out nearest first, and each one
      lies in a directory of the chain from `dir` to the boundary and is the
      name the answer gave there; under any limit. */
  lemma MatchesNearestFirst(answer: Path -> MatchResult, dir: Path, stopAt: Path, limit: Limit, count: nat)
    ensures var m := Walk(answer, dir, stopAt, limit, count).matches;
      && NearestFirst(m)
      && forall i :: 0 <= i < |m| ==>
           && !IsRoot(m[i])
           && Dirname(m[i]) in Chain(dir, stopAt)
           && answer(Dirname(m[i])) == Found(Basename(m[i]))
  {
    var r := Walk(answer, dir, stopAt, limit, count);
    var ch := Chain(dir, stopAt);
    WalkVisitsPrefix(answer, dir, stopAt, limit, count);
    WalkCollects(answer, dir, stopAt, limit, count);
    assert r.visited == UpToStop(answer, ch)[..|r.visited|];
    PrefixOfChain(r.visited, ch);
    CollectOrdered(answer, r.visited);
    CollectFromDirs(answer, r.visited);
  }

  /** A prefix of a list whose depths drop by one at each step is nearest
      first, and holds only members of the list. */
  lemma PrefixOfChain(vs: seq<Path>, ch: seq<Path>)
    requires vs <= ch && ch != []
    requires forall j :: 0 <= j < |ch| ==> |ch[j].segs| == |ch[0].segs| - j
    ensures NearestFirst(vs)
    ensures forall d :: d in vs ==> d in ch
  {
    forall i, j | 0 <= i < j < |vs|
      ensures |vs[j].segs| < |vs[i].segs|
    {
      assert vs[i] == ch[i] && vs[j] == ch[j];
    }
    forall d | d in vs
      ensures d in ch
    {
      var k :| 0 <= k < |vs| && vs[k] == d;
      assert ch[k] == d;
    }
  }

  /** A list tested only until its first Stop: nothing past the Stop at index
      `k` is tested. */
  lemma {:induction false} UpToStopEndsAtStop(answer: Path -> MatchResult, dirs: seq<Path>, k: nat)
    requires k < |dirs| && answer(dirs[k]).Stop?
    ensures |UpToStop(answer, dirs)| <= k + 1
  {
    if k > 0 && !answer(dirs[0]).Stop? {
      UpToStopEndsAtStop(answer, dirs[1..], k - 1);
    }
  }

  /** A list with no Stop in it is tested in full. */
  lemma {:induction false} UpToStopWithoutStop(answer: Path -> MatchResult, dirs: seq<Path>)
    requires forall d :: d in dirs ==> !answer(d).Stop?
    ensures UpToStop(answer, dirs) == dirs
  {
    if dirs != [] {
      assert dirs[0] in dirs;
      assert dirs == [dirs[0]] + dirs[1..];
      UpToStopCons(answer, dirs[0], dirs[1..]);
      UpToStopWithoutStop(answer, dirs[1..]);
    }
  }

  /** Every match gathered from a list comes from a directory above level `b`
      when each listed directory either lies above it or answers Stop. */
  lemma {:induction false} CollectBelow(answer: Path -> MatchResult, dirs: seq<Path>, b: int)
    requires forall j :: 0 <= j < |dirs| ==> answer(dirs[j]).Stop? || |dirs[j].segs| > b
    ensures forall i :: 0 <= i < |Collect(answer, dirs)| ==> |Dirname(Collect(answer, dirs)[i]).segs| > b
  {
    if dirs != [] {
      assert dirs == [dirs[0]] + dirs[1..];
      CollectCons(answer, dirs[0], dirs[1..]);
      var found := answer(dirs[0]);
      if !found.Stop? {
        var here := Contribution(dirs[0], found);
        var rest := Collect(answer, dirs[1..]);
        assert forall j :: 0 <= j < |dirs[1..]| ==> dirs[1..][j] == dirs[j + 1];
        CollectBelow(answer, dirs[1..], b);
        if found.Found? {
          JoinParts(dirs[0], found.name);
        }
        var m := here + rest;
        forall i | 0 <= i < |m|
          ensures |Dirname(m[i]).segs| > b
        {
          if i >= |here| {
            assert m[i] == rest[i - |here|];
          }
        }
      }
    }
  }

  /** The Stop sentinel: when the answer is Stop for the `k`-th directory of
      the chain, no directory past it is tested and every match comes from a
      directory strictly nearer than it; nothing is appended for it. */
  lemma StopHalts(answer: Path -> MatchResult, dir: Path, stopAt: Path, limit: Limit, count: nat, k: nat)
    requires k < |Chain(dir, stopAt)| && answer(Chain(dir, stopAt)[k]).Stop?
    ensures var r := Walk(answer, dir, stopAt, limit, count);
      && |r.visited| <= k + 1
      && forall i :: 0 <= i < |r.matches| ==> |Dirname(r.matches[i]).segs| > |Chain(dir, stopAt)[k].segs|
  {
    var r := Walk(answer, dir, stopAt, limit, count);
    var ch := Chain(dir, stopAt);
    WalkVisitsPrefix(answer, dir, stopAt, limit, count);
    WalkCollects(answer, dir, stopAt, limit, count);
    UpToStopEndsAtStop(answer, ch, k);
    assert r.visited == UpToStop(answer, ch)[..|r.visited|];
    PrefixBeforeStop(answer, r.visited, ch, k);
    CollectBelow(answer, r.visited, |ch[k].segs|);
  }

  /** In a tested prefix of a nearest-first chain that holds at most `k + 1`
      directories, each one is the Stop at index `k` or lies above it. */
  lemma PrefixBeforeStop(answer: Path -> MatchResult, vs: seq<Path>, ch: seq<Path>, k: nat)
    requires vs <= ch && |vs| <= k + 1 && k < |ch| && answer(ch[k]).Stop?
    requires forall j :: 0 <= j < |ch| ==> |ch[j].segs| == |ch[0].segs| - j
    ensures forall j :: 0 <= j < |vs| ==> answer(vs[j]).Stop? || |vs[j].segs| > |ch[k].segs|
  {
    forall j | 0 <= j < |vs|
      ensures answer(vs[j]).Stop? || |vs[j].segs| > |ch[k].segs|
    {
      assert vs[j] == ch[j];
    }
  }

  /** The boundary is inclusive: with no limit and no Stop on the way, a
      boundary that is `dir` or one of its ancestors is the last directory
      tested, after every directory between. */
  lemma BoundaryInclusive(answer: Path -> MatchResult, dir: Path, stopAt: Path)
    requires AncestorOrSelf(stopAt, dir)
    requires forall j :: 0 <= j < |Chain(dir, stopAt)| ==> !answer(Chain(dir, stopAt)[j]).Stop?
    ensures var r := Walk(answer, dir, stopAt, Infinite, 0);
      r.visited == Chain(dir, stopAt) && r.visited[|r.visited| - 1] == stopAt
  {
    WalkUnlimited(answer, dir, stopAt, 0);
    assert forall d :: d in Chain(dir, stopAt) ==> !answer(d).Stop?;
    UpToStopWithoutStop(answer, Chain(dir, stopAt));
  }

  /** A boundary equal to the start directory tests exactly one directory. */
  lemma BoundaryAtStart(answer: Path -> MatchResult, dir: Path, limit: Limit, count: nat)
    ensures Walk(answer, dir, dir, limit, count).visited == [dir]
  {
    WalkLast(answer, dir, dir, limit, count);
  }

  // ---------------------------------------------------------------------------
  // Properties of the entry points

  /** Every match of the root-guarded `findUpMultiple` exists, sits in a
      directory of the chain from the start directory to the boundary, is the
      name the matcher reported there, and the matches come nearest first. */
  lemma FindUpMultipleSound(fs: set<Path>, processCwd: Path, crit: Criterion, opts: Options)
    ensures var m := FindUpMultiple(fs, processCwd, crit, opts);
      && NearestFirst(m)
      && forall i :: 0 <= i < |m| ==>
           && m[i] in fs
           && !IsRoot(m[i])
           && Dirname(m[i]) in Chain(StartDirectory(processCwd, opts), StopDirectory(processCwd, opts))
           && RunMatcher(fs, crit, Dirname(m[i])) == Found(Basename(m[i]))
  {
    var m := FindUpMultiple(fs, processCwd, crit, opts);
    MatchesNearestFirst(Tester(fs, crit), StartDirectory(processCwd, opts), StopDirectory(processCwd, opts), opts.limit, 0);
    forall i | 0 <= i < |m|
      ensures m[i] in fs
    {
      JoinDirnameBasename(m[i]);
      assert RunMatcher(fs, crit, Dirname(m[i])) == Found(Basename(m[i]));
    }
  }

  /** The root-guarded `findUp` returns the nearest match of the unlimited
      search, or None when the unlimited search finds nothing. */
  lemma FindUpIsFirstMatch(fs: set<Path>, processCwd: Path, crit: Criterion, opts: Options)
    ensures var all := FindUpMultiple(fs, processCwd, crit, opts.(limit := Infinite));
      FindUp(fs, processCwd, crit, opts) == if |all| > 0 then Some(all[0]) else None
  {
    var o1 := opts.(limit := Finite(1));
    var dir := StartDirectory(processCwd, opts);
    var stopAt := StopDirectory(processCwd, opts);
    assert StartDirectory(processCwd, o1) == dir && StopDirectory(processCwd, o1) == stopAt;
    assert StartDirectory(processCwd, opts.(limit := Infinite)) == dir;
    assert StopDirectory(processCwd, opts.(limit := Infinite)) == stopAt;
    WalkLimited(Tester(fs, crit), dir, stopAt, 1, 0);
  }

  /** For `limit >= 1` the root-guarded entry point returns at most `limit`
      matches, and they are the first ones of the unlimited search. */
  lemma FindUpMultipleLimited(fs: set<Path>, processCwd: Path, crit: Criterion, opts: Options)
    requires opts.limit.Finite? && opts.limit.n >= 1
    ensures var all := FindUpMultiple(fs, processCwd, crit, opts.(limit := Infinite));
      var some := FindUpMultiple(fs, processCwd, crit, opts);
      |some| <= opts.limit.n && some <= all && (|some| < opts.limit.n ==> some == all)
  {
    var dir := StartDirectory(processCwd, opts);
    var stopAt := StopDirectory(processCwd, opts);
    assert StartDirectory(processCwd, opts.(limit := Infinite)) == dir;
    assert StopDirectory(processCwd, opts.(limit := Infinite)) == stopAt;
    WalkLimited(Tester(fs, crit), dir, stopAt, opts.limit.n, 0);
  }

  /** A `limit` of 0 or less still tests the start directory and returns at
      most its one match, because the limit is checked after the push. */
  lemma FindUpMultipleLimitZero(fs: set<Path>, processCwd: Path, crit: Criterion, opts: Options)
    requires opts.limit.Finite? && opts.limit.n <= 0
    ensures var r := Search(fs, processCwd, crit, opts);
      r.visited == [StartDirectory(processCwd, opts)] && |r.matches| <= 1
  {
    LimitMetAtStart(Tester(fs, crit), StartDirectory(processCwd, opts), StopDirectory(processCwd, opts), opts.limit.n, 0);
  }

  /** When the predicate returns `findUpStop` for a directory of the chain, no
      farther directory is tested and nothing from it or beyond is returned. */
  lemma FindUpMultipleStop(fs: set<Path>, processCwd: Path, crit: Criterion, opts: Options, k: nat)
    requires var ch := Chain(StartDirectory(processCwd, opts), StopDirectory(processCwd, opts));
      k < |ch| && crit.Predicate? && crit.test(ch[k]).Stop?
    ensures var ch := Chain(StartDirectory(processCwd, opts), StopDirectory(processCwd, opts));
      var r := Search(fs, processCwd, crit, opts);
      && |r.visited| <= k + 1
      && forall i :: 0 <= i < |r.matches| ==> |Dirname(r.matches[i]).segs| > |ch[k].segs|
  {
    var ch := Chain(StartDirectory(processCwd, opts), StopDirectory(processCwd, opts));
    assert Tester(fs, crit)(ch[k]).Stop?;
    StopHalts(Tester(fs, crit), StartDirectory(processCwd, opts), StopDirectory(processCwd, opts), opts.limit, 0, k);
  }

  /** Without a `stopAt` option the boundary is the root of the start
      directory, which is always on the chain, so the walk can climb all the
      way to the root. With the boundary on the chain, `FindUpMultipleAsWritten`
      shows that the loop as written ends. */
  lemma DefaultStopAtIsRoot(processCwd: Path, opts: Options)
    requires opts.stopAt.None?
    ensures var dir := StartDirectory(processCwd, opts);
      && StopDirectory(processCwd, opts) == RootOf(dir)
      && AncestorOrSelf(StopDirectory(processCwd, opts), dir)
      && |Chain(dir, StopDirectory(processCwd, opts))| == |dir.segs| + 1
  {
  }

  /** `stopAt: ""` resolves to the start directory itself (the empty string is
      not nullish), so only the start directory is searched. */
  lemma EmptyStopAtSearchesOnlyStart(fs: set<Path>, processCwd: Path, crit: Criterion, opts: Options)
    requires opts.stopAt == Some(Plain(Empty))
    ensures Search(fs, processCwd, crit, opts).visited == [StartDirectory(processCwd, opts)]
  {
    BoundaryAtStart(Tester(fs, crit), StartDirectory(processCwd, opts), opts.limit, 0);
  }

  // ---------------------------------------------------------------------------
  // The loop as written, without a root guard

  /** The outcome of a loop that may never end. */
  datatype Outcome<T> = Returns(value: T) | Diverges

  /** The loop of `findUpMultiple` exactly as written. At the root `dirname` is
      the identity, so once the root is reached without meeting the boundary,
      the loop tests the root again and again with the same answer: only the
      match limit can end it, with the root's match pushed repeatedly. */
  function WalkAsWritten(answer: Path -> MatchResult, dir: Path, stopAt: Path, limit: Limit, count: nat)
    : (r: Outcome<seq<Path>>)
    decreases |dir.segs|
  {
    var found := answer(dir);
    if found.Stop? then Returns([])
    else
      var here := Contribution(dir, found);
      if dir == stopAt || Reached(limit, count + |here|) then Returns(here)
      else if IsRoot(dir) then
        if found.NoMatch? || limit.Infinite? then Diverges
        else Returns(seq(limit.n - count, _ => Join(dir, found.name)))
      else
        match WalkAsWritten(answer, Dirname(dir), stopAt, limit, count + |here|)
        case Returns(rest) => Returns(here + rest)
        case Diverges => Diverges
  }

  /** When the boundary is the start directory or an ancestor of it, the loop
      as written ends, and with the result of the corrected walk. */
  lemma {:induction false} AsWrittenAgrees(answer: Path -> MatchResult, dir: Path, stopAt: Path, limit: Limit, count: nat)
    requires AncestorOrSelf(stopAt, dir)
    ensures WalkAsWritten(answer, dir, stopAt, limit, count) == Returns(Walk(answer, dir, stopAt, limit, count).matches)
    decreases |dir.segs|
  {
    var found := answer(dir);
    var here := Contribution(dir, found);
    if found.Stop? || dir == stopAt || Reached(limit, count + |here|) {
      WalkLast(answer, dir, stopAt, limit, count);
    } else {
      AncestorOfDirname(stopAt, dir);
      WalkStep(answer, dir, stopAt, limit, count);
      AsWrittenAgrees(answer, Dirname(dir), stopAt, limit, count + |here|);
    }
  }

  /** At the entry point: with the boundary at or above the start directory,
      which includes a missing `stopAt`, the source's loop ends and returns
      exactly `FindUpMultiple`'s matches, and so `findUp` returns `FindUp`. */
  lemma FindUpMultipleAsWritten(fs: set<Path>, processCwd: Path, crit: Criterion, opts: Options)
    requires AncestorOrSelf(StopDirectory(processCwd, opts), StartDirectory(processCwd, opts))
    ensures WalkAsWritten(Tester(fs, crit), StartDirectory(processCwd, opts), StopDirectory(processCwd, opts), opts.limit, 0)
            == Returns(FindUpMultiple(fs, processCwd, crit, opts))
    ensures var o1 := opts.(limit := Finite(1));
      match WalkAsWritten(Tester(fs, crit), StartDirectory(processCwd, o1), StopDirectory(processCwd, o1), Finite(1), 0)
      case Returns(ms) => FindUp(fs, processCwd, crit, opts) == if |ms| > 0 then Some(ms[0]) else None
      case Diverges => false
  {
    var o1 := opts.(limit := Finite(1));
    AsWrittenAgrees(Tester(fs, crit), StartDirectory(processCwd, opts), StopDirectory(processCwd, opts), opts.limit, 0);
    assert StartDirectory(processCwd, o1) == StartDirectory(processCwd, opts);
    assert StopDirectory(processCwd, o1) == StopDirectory(processCwd, opts);
    AsWrittenAgrees(Tester(fs, crit), StartDirectory(processCwd, o1), StopDirectory(processCwd, o1), Finite(1), 0);
  }

  /** The defect: with a boundary off the ancestor chain, no limit, and no
      directory up to the root answering Stop, with or without matches, the
      loop never ends. */
  lemma {:induction false} AsWrittenSpinsAtRoot(answer: Path -> MatchResult, dir: Path, stopAt: Path, count: nat)
    requires !AncestorOrSelf(stopAt, dir)
    requires forall d :: d in Chain(dir, stopAt) ==> !answer(d).Stop?
    ensures WalkAsWritten(answer, dir, stopAt, Infinite, count) == Diverges
    decreases |dir.segs|
  {
    ChainUnfold(dir, stopAt);
    assert dir in Chain(dir, stopAt);
    if !IsRoot(dir) {
      NotAncestorOfDirname(stopAt, dir);
      AsWrittenSpinsAtRoot(answer, Dirname(dir), stopAt, count + |Contribution(dir, answer(dir))|);
    }
  }

  /** A concrete instance: searching for "package.json" from /a with the
      boundary /b on an empty filesystem never returns. */
  /** A non-empty relative `stopAt` resolves below the start directory, so it
      is never on the chain: the easiest way into the spin above. */
  lemma RelativeStopAtOffChain(processCwd: Path, opts: Options)
    requires opts.stopAt.Some? && ToPath(opts.stopAt.value).Rel? && ToPath(opts.stopAt.value).rel != []
    ensures !AncestorOrSelf(StopDirectory(processCwd, opts), StartDirectory(processCwd, opts))
  {
  }

  /** From `/a` with `stopAt: "s"` on an empty filesystem the loop as written
      never returns. */
  lemma RelativeStopAtSpinExample()
    ensures var opts := Options(None, Some(Plain(Rel(["s"]))), Infinite);
      var a := Path("/", ["a"]);
      WalkAsWritten(Tester({}, Names(["package.json"])), StartDirectory(a, opts), StopDirectory(a, opts), Infinite, 0)
      == Diverges
  {
    var opts := Options(None, Some(Plain(Rel(["s"]))), Infinite);
    var a := Path("/", ["a"]);
    var t := Tester({}, Names(["package.json"]));
    RelativeStopAtOffChain(a, opts);
    forall d | d in Chain(a, StopDirectory(a, opts))
      ensures !t(d).Stop?
    {
    }
    AsWrittenSpinsAtRoot(t, a, StopDirectory(a, opts), 0);
  }

  lemma SpinExample()
    ensures WalkAsWritten(Tester({}, Names(["package.json"])), Path("/", ["a"]), Path("/", ["b"]), Infinite, 0)
            == Diverges
  {
    var t := Tester({}, Names(["package.json"]));
    var a, b := Path("/", ["a"]), Path("/", ["b"]);
    assert !AncestorOrSelf(b, a) by {
      assert b.segs[0] != a.segs[0];
    }
    forall d | d in Chain(a, b)
      ensures !t(d).Stop?
    {
    }
    AsWrittenSpinsAtRoot(t, a, b, 0);
  }

  /** A second symptom: with a match limit, the root's match is returned
      several times over instead of once. */
  lemma RepeatedRootMatchExample()
    ensures var p := Path("/", ["package.json"]);
      WalkAsWritten(Tester({p}, Names(["package.json"])), Path("/", ["a"]), Path("/", ["b"]), Finite(3), 0)
      == Returns([p, p, p])
  {
    var p := Path("/", ["package.json"]);
    var t := Tester({p}, Names(["package.json"]));
    var a, b, root := Path("/", ["a"]), Path("/", ["b"]), Path("/", []);
    assert Join(root, "package.json") == p by {
      assert [] + ["package.json"] == ["package.json"];
    }
    assert t(a) == NoMatch by {
      assert |Join(a, "package.json").segs| == 2;
      assert LocatePath({p}, ["package.json"], a) == None;
    }
    assert t(root) == Found("package.json") by {
      assert LocatePath({p}, ["package.json"], root) == Some("package.json");
    }
    AsWrittenRepeatsAtRoot(t, root, b, 3, 0);
    var ps := seq(3, _ => Join(root, "package.json"));
    assert ps == [p, p, p];
    AsWrittenStep(t, a, b, Finite(3), 0);
    assert Dirname(a) == root;
    assert [] + ps == ps;
  }

  /** One iteration of the loop as written that moves on to the parent. */
  lemma AsWrittenStep(answer: Path -> MatchResult, dir: Path, stopAt: Path, limit: Limit, count: nat)
    requires && !answer(dir).Stop? && dir != stopAt && !IsRoot(dir)
             && !Reached(limit, count + |Contribution(dir, answer(dir))|)
    ensures var here := Contribution(dir, answer(dir));
      WalkAsWritten(answer, dir, stopAt, limit, count)
      == match WalkAsWritten(answer, Dirname(dir), stopAt, limit, count + |here|)
         case Returns(rest) => Returns(here + rest)
         case Diverges => Diverges
  {
  }

  /** At the root, past a boundary it never met and below a limit of `n`
      matches, the loop as written pushes the root's match again on every
      iteration until the limit is reached. */
  lemma AsWrittenRepeatsAtRoot(answer: Path -> MatchResult, root: Path, stopAt: Path, n: int, count: nat)
    requires IsRoot(root) && root != stopAt && answer(root).Found? && count + 1 <= n
    ensures WalkAsWritten(answer, root, stopAt, Finite(n), count)
            == Returns(seq(n - count, _ => Join(root, answer(root).name)))
  {
    var m := Join(root, answer(root).name);
    if count + 1 < n {
      assert !Reached(Finite(n), count + 1);
    } else {
      assert seq(n - count, _ => m) == [m];
    }
  }

  /** The corrected walk halts at the root whatever the boundary: without a
      Stop and without a limit it tests every directory up to the root. */
  lemma CorrectedWalkReachesRoot(answer: Path -> MatchResult, dir: Path, stopAt: Path)
    requires !AncestorOrSelf(stopAt, dir)
    requires forall d :: d in Chain(dir, stopAt) ==> !answer(d).Stop?
    ensures var r := Walk(answer, dir, stopAt, Infinite, 0);
      |r.visited| == |dir.segs| + 1 && r.visited[|r.visited| - 1] == RootOf(dir)
  {
    WalkUnlimited(answer, dir, stopAt, 0);
    UpToStopWithoutStop(answer, Chain(dir, stopAt));
  }
}

=== FILE: find_up_ts.dfy ===
/** The literal-name upward search of `src/util/findUp.ts` (`findUpSync`).

    Unlike the search in `findUp.js`, `limit` here caps the number of PARENT
    STEPS, a missing or empty `stopAt` means the root, a given `stopAt` is
    resolved against the process directory rather than the start directory,
    and the root fixpoint (`dirname(dir) === dir`) ends the walk whatever the
    boundary is. */
module FindUpTs {
  import opened Wrappers
  import opened Paths
  import opened Matcher
  import opened Limits

  /** The `name` argument: one file name or an array of them. */
  datatype NameArg = Single(name: string) | List(names: seq<string>)

  /** `Array.isArray(name) ? name : [name]`. */
  function Candidates(name: NameArg): (r: seq<string>)
    ensures name.Single? ==> r == [name.name]
    ensures name.List? ==> r == name.names
  {
    match name
    case Single(n) => [n]
    case List(ns) => ns
  }

  /** The options object; `limit` is `Infinite` when the option is absent.
      A given `limit` (0 included) is kept as it is, because `??` only
      replaces null and undefined. */
  datatype TsOptions = TsOptions(cwd: Option<PathArg>, stopAt: Option<PathArg>, limit: Limit)

  /** The start directory: `path.resolve(cwd ?? process.cwd())`. An empty
      `cwd` also resolves to the process directory. */
  function StartDir(processCwd: Path, opts: TsOptions): (r: Path)
    ensures opts.cwd.None? || opts.cwd == Some(Empty) ==> r == processCwd
    ensures opts.cwd.Some? && opts.cwd.value.Abs? ==> r == opts.cwd.value.path
    ensures opts.cwd.Some? && opts.cwd.value.Rel? ==> r == Path(processCwd.root, processCwd.segs + opts.cwd.value.rel)
  {
    Resolve(processCwd, match opts.cwd case None => Empty case Some(a) => a)
  }

  /** The boundary: `stopAt ? path.resolve(stopAt) : root`. The empty string
      is falsy, so it means the root like a missing option; any other value is
      resolved against the process directory. */
  function StopDir(processCwd: Path, opts: TsOptions): (r: Path)
    ensures opts.stopAt.None? || opts.stopAt == Some(Empty) ==> r == RootOf(StartDir(processCwd, opts))
    ensures opts.stopAt.Some? && opts.stopAt.value.Abs? ==> r == opts.stopAt.value.path
    ensures opts.stopAt.Some? && opts.stopAt.value.Rel? ==>
      r == Path(processCwd.root, processCwd.segs + opts.stopAt.value.rel)
  {
    match opts.stopAt
    case None => RootOf(StartDir(processCwd, opts))
    case Some(Empty) => RootOf(StartDir(processCwd, opts))
    case Some(a) => Resolve(processCwd, a)
  }

  /** One walk: the path returned, if any, and the directories searched. */
  datatype TsRun = TsRun(found: Option<Path>, visited: seq<Path>)

  /** The `while (true)` loop from `dir`, `depth` parent steps above the
      start: search the candidates in order, then stop at the boundary, at
      the depth limit or at the root, and otherwise move to the parent. */
  function WalkTs(fs: set<Path>, names: seq<string>, dir: Path, stopDir: Path, limit: Limit, depth: nat): TsRun
    decreases |dir.segs|
  {
    match LocatePath(fs, names, dir)
    case Some(n) => TsRun(Some(Join(dir, n)), [dir])
    case None =>
      if dir == stopDir || Reached(limit, depth) || IsRoot(dir) then TsRun(None, [dir])
      else
        var rest := WalkTs(fs, names, Dirname(dir), stopDir, limit, depth + 1);
        TsRun(rest.found, [dir] + rest.visited)
  }

  /** The whole walk `findUpSync` performs. */
  function SearchTs(fs: set<Path>, processCwd: Path, name: NameArg, opts: TsOptions): TsRun {
    WalkTs(fs, Candidates(name), StartDir(processCwd, opts), StopDir(processCwd, opts), opts.limit, 0)
  }

  /** `findUpSync`: the first existing candidate path, or None (`undefined`). */
  function FindUpSync(fs: set<Path>, processCwd: Path, name: NameArg, opts: TsOptions): Option<Path> {
    SearchTs(fs, processCwd, name, opts).found
  }

  // ---------------------------------------------------------------------------
  // Reference definitions

  /** The directories the walk may search from `dir` at `depth`: the chain up
      to the boundary or the root, cut after the last directory the depth
      limit still lets the walk reach. */
  function Window(dir: Path, stopDir: Path, limit: Limit, depth: nat): (w: seq<Path>)
    ensures w <= Chain(dir, stopDir) && |w| >= 1
    ensures limit.Finite? ==> |w| <= if limit.n - depth <= 0 then 1 else limit.n - depth + 1
  {
    var ch := Chain(dir, stopDir);
    match limit
    case Infinite => ch
    case Finite(n) => ch[..if n - depth <= 0 then 1 else Min(|ch|, n - depth + 1)]
  }

  /** Some candidate exists in directory `d`. */
  predicate HasCandidate(fs: set<Path>, names: seq<string>, d: Path) {
    exists i :: 0 <= i < |names| && Join(d, names[i]) in fs
  }

  /** Searching `dirs` in order: the first candidate of the first directory
      that holds any candidate. */
  function FirstFound(fs: set<Path>, names: seq<string>, dirs: seq<Path>): Option<Path>
    decreases |dirs|
  {
    if dirs == [] then None
    else
      match LocatePath(fs, names, dirs[0])
      case Some(n) => Some(Join(dirs[0], n))
      case None => FirstFound(fs, names, dirs[1..])
  }

  /** The search of a list finds nothing exactly when no listed directory
      holds a candidate. */
  lemma {:induction false} FirstFoundNone(fs: set<Path>, names: seq<string>, dirs: seq<Path>)
    ensures FirstFound(fs, names, dirs).None? <==> forall j :: 0 <= j < |dirs| ==> !HasCandidate(fs, names, dirs[j])
    decreases |dirs|
  {
    if dirs != [] {
      FirstFoundNone(fs, names, dirs[1..]);
      assert forall j :: 0 < j < |dirs| ==> dirs[j] == dirs[1..][j - 1];
    }
  }

  /** What the search of a list finds is the first candidate, in list order,
      of the first directory that holds one. */
  lemma {:induction false} FirstFoundSome(fs: set<Path>, names: seq<string>, dirs: seq<Path>)
    requires FirstFound(fs, names, dirs).Some?
    ensures exists j, i ::
      && 0 <= j < |dirs|
      && (forall j' :: 0 <= j' < j ==> !HasCandidate(fs, names, dirs[j']))
      && FirstExisting(fs, names, dirs[j], i)
      && FirstFound(fs, names, dirs).value == Join(dirs[j], names[i])
    decreases |dirs|
  {
    var r := FirstFound(fs, names, dirs);
    match LocatePath(fs, names, dirs[0])
    case Some(n) =>
      var i :| FirstExisting(fs, names, dirs[0], i) && names[i] == n;
      assert FirstExisting(fs, names, dirs[0], i) && r.value == Join(dirs[0], names[i]);
    case None =>
      var tail := dirs[1..];
      FirstFoundSome(fs, names, tail);
      var j, i :| && 0 <= j < |tail|
                  && (forall j' :: 0 <= j' < j ==> !HasCandidate(fs, names, tail[j']))
                  && FirstExisting(fs, names, tail[j], i)
                  && r.value == Join(tail[j], names[i]);
      FoundPastHead(fs, names, dirs, j);
      assert dirs[j + 1] == tail[j];
  }

  /** Directories with no candidate before position j of the tail, behind a
      head with none either, are those before position j + 1 of the list. */
  lemma FoundPastHead(fs: set<Path>, names: seq<string>, dirs: seq<Path>, j: nat)
    requires j + 1 < |dirs| && !HasCandidate(fs, names, dirs[0])
    requires forall j' :: 0 <= j' < j ==> !HasCandidate(fs, names, dirs[1..][j'])
    ensures forall j' :: 0 <= j' < j + 1 ==> !HasCandidate(fs, names, dirs[j'])
  {
    forall j' | 0 < j' < j + 1
      ensures !HasCandidate(fs, names, dirs[j'])
    {
      assert dirs[j'] == dirs[1..][j' - 1];
    }
  }

  // ---------------------------------------------------------------------------
  // Step equations

  /** A directory holding a candidate ends the walk with its first candidate. */
  lemma WalkTsFoundHere(fs: set<Path>, names: seq<string>, dir: Path, stopDir: Path, limit: Limit, depth: nat)
    requires LocatePath(fs, names, dir).Some?
    ensures WalkTs(fs, names, dir, stopDir, limit, depth)
            == TsRun(Some(Join(dir, LocatePath(fs, names, dir).value)), [dir])
  {
  }

  /** A directory without candidates ends the walk at the boundary, the depth
      limit or the root. */
  lemma WalkTsLast(fs: set<Path>, names: seq<string>, dir: Path, stopDir: Path, limit: Limit, depth: nat)
    requires LocatePath(fs, names, dir).None?
    requires dir == stopDir || Reached(limit, depth) || IsRoot(dir)
    ensures WalkTs(fs, names, dir, stopDir, limit, depth) == TsRun(None, [dir])
  {
  }

  /** Otherwise the walk continues in the parent, one step deeper. */
  lemma WalkTsStep(fs: set<Path>, names: seq<string>, dir: Path, stopDir: Path, limit: Limit, depth: nat)
    requires LocatePath(fs, names, dir).None?
    requires dir != stopDir && !Reached(limit, depth) && !IsRoot(dir)
    ensures var rest := WalkTs(fs, names, Dirname(dir), stopDir, limit, depth + 1);
      WalkTs(fs, names, dir, stopDir, limit, depth) == TsRun(rest.found, [dir] + rest.visited)
  {
  }

  /** The window read one step at a time, as the loop reads it. */
  lemma {:induction false} WindowUnfold(dir: Path, stopDir: Path, limit: Limit, depth: nat)
    ensures dir == stopDir || Reached(limit, depth) || IsRoot(dir) ==> Window(dir, stopDir, limit, depth) == [dir]
    ensures !(dir == stopDir || Reached(limit, depth) || IsRoot(dir)) ==>
      Window(dir, stopDir, limit, depth) == [dir] + Window(Dirname(dir), stopDir, limit, depth + 1)
  {
    ChainUnfold(dir, stopDir);
    var ch := Chain(dir, stopDir);
    if !(dir == stopDir || Reached(limit, depth) || IsRoot(dir)) && limit.Finite? {
      var n := limit.n;
      var tail := Chain(Dirname(dir), stopDir);
      var k := if n - (depth + 1) <= 0 then 1 else Min(|tail|, n - (depth + 1) + 1);
      assert Min(|ch|, n - depth + 1) == 1 + k;
      assert ch[..1 + k] == [dir] + tail[..k];
    }
  }

  // ---------------------------------------------------------------------------
  // Properties of the walk

  /** The walk returns what searching its window in order returns: the first
      candidate of the nearest directory, within the boundary and the depth
      limit, that holds one. */
  lemma {:induction false} WalkTsFindsFirst(fs: set<Path>, names: seq<string>, dir: Path, stopDir: Path, limit: Limit, depth: nat)
    ensures WalkTs(fs, names, dir, stopDir, limit, depth).found
            == FirstFound(fs, names, Window(dir, stopDir, limit, depth))
    decreases |dir.segs|
  {
    WindowUnfold(dir, stopDir, limit, depth);
    var w := Window(dir, stopDir, limit, depth);
    match LocatePath(fs, names, dir)
    case Some(_) =>
      WalkTsFoundHere(fs, names, dir, stopDir, limit, depth);
    case None =>
      if dir == stopDir || Reached(limit, depth) || IsRoot(dir) {
        WalkTsLast(fs, names, dir, stopDir, limit, depth);
        assert w[1..] == [];
      } else {
        WalkTsStep(fs, names, dir, stopDir, limit, depth);
        WalkTsFindsFirst(fs, names, Dirname(dir), stopDir, limit, depth + 1);
        assert w[1..] == Window(Dirname(dir), stopDir, limit, depth + 1);
      }
  }

  /** The searched directories are a prefix of the window, and all of it when
      nothing is found; when something is found it lies in the last searched
      directory. */
  lemma WalkTsVisits(fs: set<Path>, names: seq<string>, dir: Path, stopDir: Path, limit: Limit, depth: nat)
    ensures var r := WalkTs(fs, names, dir, stopDir, limit, depth);
      && r.visited <= Window(dir, stopDir, limit, depth)
      && (r.found.None? ==> r.visited == Window(dir, stopDir, limit, depth))
      && (r.found.Some? ==> r.visited != [] && !IsRoot(r.found.value) && Dirname(r.found.value) == r.visited[|r.visited| - 1])
  {
    WalkTsKeepsToWindow(fs, names, dir, stopDir, limit, depth);
  }

  /** By induction along the search, one iteration at a time. */
  lemma {:induction false} WalkTsKeepsToWindow(fs: set<Path>, names: seq<string>, dir: Path, stopDir: Path, limit: Limit, depth: nat)
    ensures KeepsToWindow(WalkTs(fs, names, dir, stopDir, limit, depth), Window(dir, stopDir, limit, depth))
    decreases |dir.segs|
  {
    if LocatePath(fs, names, dir).None? && dir != stopDir && !Reached(limit, depth) && !IsRoot(dir) {
      WalkTsKeepsToWindow(fs, names, Dirname(dir), stopDir, limit, depth + 1);
    }
    WalkTsVisitsUnfold(fs, names, dir, stopDir, limit, depth);
  }

  /** The search's visits keep to the window `w`: all of it when nothing was
      found, and otherwise ending at the directory holding the result. */
  predicate KeepsToWindow(r: TsRun, w: seq<Path>) {
    && r.visited <= w
    && (r.found.None? ==> r.visited == w)
    && (r.found.Some? ==> r.visited != [] && !IsRoot(r.found.value) && Dirname(r.found.value) == r.visited[|r.visited| - 1])
  }

  /** One iteration of the search: it ends inside the window at `dir`, or
      moves on and the rest of the search keeps to the rest of the window. */
  lemma WalkTsVisitsUnfold(fs: set<Path>, names: seq<string>, dir: Path, stopDir: Path, limit: Limit, depth: nat)
    requires || LocatePath(fs, names, dir).Some? || dir == stopDir || Reached(limit, depth) || IsRoot(dir)
             || KeepsToWindow(WalkTs(fs, names, Dirname(dir), stopDir, limit, depth + 1), Window(Dirname(dir), stopDir, limit, depth + 1))
    ensures KeepsToWindow(WalkTs(fs, names, dir, stopDir, limit, depth), Window(dir, stopDir, limit, depth))
  {
    if LocatePath(fs, names, dir).Some? {
      KeepsToWindowFound(fs, names, dir, stopDir, limit, depth);
    } else if dir == stopDir || Reached(limit, depth) || IsRoot(dir) {
      WindowUnfold(dir, stopDir, limit, depth);
      WalkTsLast(fs, names, dir, stopDir, limit, depth);
    } else {
      KeepsToWindowStep(fs, names, dir, stopDir, limit, depth);
    }
  }

  /** A candidate in `dir` ends the search there, at the window's head. */
  lemma KeepsToWindowFound(fs: set<Path>, names: seq<string>, dir: Path, stopDir: Path, limit: Limit, depth: nat)
    requires LocatePath(fs, names, dir).Some?
    ensures KeepsToWindow(WalkTs(fs, names, dir, stopDir, limit, depth), Window(dir, stopDir, limit, depth))
  {
    WindowUnfold(dir, stopDir, limit, depth);
    WalkTsFoundHere(fs, names, dir, stopDir, limit, depth);
    JoinParts(dir, LocatePath(fs, names, dir).value);
  }

  /** A search that moves on keeps to the window when the rest of it keeps to
      the rest of the window. */
  lemma KeepsToWindowStep(fs: set<Path>, names: seq<string>, dir: Path, stopDir: Path, limit: Limit, depth: nat)
    requires LocatePath(fs, names, dir).None? && dir != stopDir && !Reached(limit, depth) && !IsRoot(dir)
    requires KeepsToWindow(WalkTs(fs, names, Dirname(dir), stopDir, limit, depth + 1), Window(Dirname(dir), stopDir, limit, depth + 1))
    ensures KeepsToWindow(WalkTs(fs, names, dir, stopDir, limit, depth), Window(dir, stopDir, limit, depth))
  {
    WindowUnfold(dir, stopDir, limit, depth);
    WalkTsStep(fs, names, dir, stopDir, limit, depth);
    var rest := WalkTs(fs, names, Dirname(dir), stopDir, limit, depth + 1);
    assert rest.found.Some? ==> ([dir] + rest.visited)[|rest.visited|] == rest.visited[|rest.visited| - 1];
  }

  // ---------------------------------------------------------------------------
  // Properties of the entry point

  /** `findUpSync` returns None exactly when no directory of the window holds
      any candidate; otherwise it returns, for the nearest directory that
      holds one, the first candidate in list order. */
  lemma FindUpSyncSpec(fs: set<Path>, processCwd: Path, name: NameArg, opts: TsOptions)
    ensures var w := Window(StartDir(processCwd, opts), StopDir(processCwd, opts), opts.limit, 0);
      var names := Candidates(name);
      var r := FindUpSync(fs, processCwd, name, opts);
      && (r.None? <==> forall j :: 0 <= j < |w| ==> !HasCandidate(fs, names, w[j]))
      && (r.Some? ==> exists j, i ::
           && 0 <= j < |w|
           && (forall j' :: 0 <= j' < j ==> !HasCandidate(fs, names, w[j']))
           && FirstExisting(fs, names, w[j], i)
           && r.value == Join(w[j], names[i]))
  {
    var w := Window(StartDir(processCwd, opts), StopDir(processCwd, opts), opts.limit, 0);
    WalkTsFindsFirst(fs, Candidates(name), StartDir(processCwd, opts), StopDir(processCwd, opts), opts.limit, 0);
    FirstFoundNone(fs, Candidates(name), w);
    if FindUpSync(fs, processCwd, name, opts).Some? {
      FirstFoundSome(fs, Candidates(name), w);
    }
  }

  /** Whatever `findUpSync` returns exists. */
  lemma FindUpSyncExists(fs: set<Path>, processCwd: Path, name: NameArg, opts: TsOptions)
    ensures var r := FindUpSync(fs, processCwd, name, opts);
      r.Some? ==> r.value in fs
  {
    FindUpSyncSpec(fs, processCwd, name, opts);
  }

  /** `limit` bounds the parent steps: with `limit: n` at most `n` parents are
      searched after the start directory, and with `n <= 0` only the start
      directory is. */
  lemma FindUpSyncDepthLimit(fs: set<Path>, processCwd: Path, name: NameArg, opts: TsOptions)
    requires opts.limit.Finite?
    ensures var r := SearchTs(fs, processCwd, name, opts);
      && (opts.limit.n >= 0 ==> |r.visited| <= opts.limit.n + 1)
      && (opts.limit.n <= 0 ==> r.visited == [StartDir(processCwd, opts)])
  {
    var dir := StartDir(processCwd, opts);
    WalkTsVisits(fs, Candidates(name), dir, StopDir(processCwd, opts), opts.limit, 0);
    if opts.limit.n <= 0 {
      WindowUnfold(dir, StopDir(processCwd, opts), opts.limit, 0);
    }
  }

  /** The walk never passes the boundary: every searched directory lies
      between the start directory and the boundary (or the root), nearest
      first. */
  lemma FindUpSyncWithinChain(fs: set<Path>, processCwd: Path, name: NameArg, opts: TsOptions)
    ensures var r := SearchTs(fs, processCwd, name, opts);
      r.visited <= Chain(StartDir(processCwd, opts), StopDir(processCwd, opts))
  {
    var dir := StartDir(processCwd, opts);
    var stopDir := StopDir(processCwd, opts);
    WalkTsVisits(fs, Candidates(name), dir, stopDir, opts.limit, 0);
    var r := SearchTs(fs, processCwd, name, opts);
    assert r.visited == Window(dir, stopDir, opts.limit, 0)[..|r.visited|];
  }

  /** The boundary is inclusive: with the boundary at or above the start
      directory, no depth limit and nothing found, every directory from the
      start up to the boundary is searched, and the boundary is the last. */
  lemma FindUpSyncBoundaryInclusive(fs: set<Path>, processCwd: Path, name: NameArg, opts: TsOptions)
    requires opts.limit.Infinite?
    requires AncestorOrSelf(StopDir(processCwd, opts), StartDir(processCwd, opts))
    requires FindUpSync(fs, processCwd, name, opts).None?
    ensures var r := SearchTs(fs, processCwd, name, opts);
      && r.visited == Chain(StartDir(processCwd, opts), StopDir(processCwd, opts))
      && r.visited[|r.visited| - 1] == StopDir(processCwd, opts)
  {
    WalkTsVisits(fs, Candidates(name), StartDir(processCwd, opts), StopDir(processCwd, opts), opts.limit, 0);
  }

  /** The root guard: with a boundary that is not on the way up and no depth
      limit, a search that finds nothing searches every directory up to the
      root and then ends, because the root is its own parent. */
  lemma FindUpSyncHaltsAtRoot(fs: set<Path>, processCwd: Path, name: NameArg, opts: TsOptions)
    requires opts.limit.Infinite?
    requires !AncestorOrSelf(StopDir(processCwd, opts), StartDir(processCwd, opts))
    requires FindUpSync(fs, processCwd, name, opts).None?
    ensures var dir := StartDir(processCwd, opts);
      var r := SearchTs(fs, processCwd, name, opts);
      |r.visited| == |dir.segs| + 1 && r.visited[|r.visited| - 1] == RootOf(dir)
  {
    WalkTsVisits(fs, Candidates(name), StartDir(processCwd, opts), StopDir(processCwd, opts), opts.limit, 0);
  }

  /** A missing or empty `stopAt` means the root of the start directory, so
      the whole chain to the root is in reach; a given one is resolved against
      the process directory, not against `cwd`. */
  lemma StopDirResolution(processCwd: Path, opts: TsOptions)
    ensures opts.stopAt.None? || opts.stopAt == Some(Empty) ==>
      && StopDir(processCwd, opts) == RootOf(StartDir(processCwd, opts))
      && Chain(StartDir(processCwd, opts), StopDir(processCwd, opts))[|StartDir(processCwd, opts).segs|]
         == RootOf(StartDir(processCwd, opts))
    ensures opts.stopAt.Some? && opts.stopAt.value.Rel? ==>
      StopDir(processCwd, opts) == Path(processCwd.root, processCwd.segs + opts.stopAt.value.rel)
    ensures opts.cwd.None? || opts.cwd == Some(Empty) ==> StartDir(processCwd, opts) == processCwd
  {
  }

  /** `findUpSync` as written: a `while (true)` loop around a `for ... of`
      loop over the candidates, returning from inside either. */
  method FindUpSyncLoop(fs: set<Path>, processCwd: Path, name: NameArg, opts: TsOptions)
    returns (result: Option<Path>)
    ensures result == FindUpSync(fs, processCwd, name, opts)
  {
    var names := Candidates(name);
    var dir := StartDir(processCwd, opts);
    var stopDir := StopDir(processCwd, opts);
    var limit := opts.limit;
    var depth: nat := 0;
    while true
      invariant WalkTs(fs, names, dir, stopDir, limit, depth).found == FindUpSync(fs, processCwd, name, opts)
      decreases |dir.segs|
    {
      var i := 0;
      while i < |names|
        invariant 0 <= i <= |names|
        invariant forall j :: 0 <= j < i ==> Join(dir, names[j]) !in fs
      {
        var fullPath := Join(dir, names[i]);
        if fullPath in fs {
          LocatePathIsFirst(fs, names, dir, i);
          WalkTsFoundHere(fs, names, dir, stopDir, limit, depth);
          return Some(fullPath);
        }
        i := i + 1;
      }
      if dir == stopDir || Reached(limit, depth) {
        WalkTsLast(fs, names, dir, stopDir, limit, depth);
        return None;
      }
      var parent := Dirname(dir);
      if parent == dir {
        WalkTsLast(fs, names, dir, stopDir, limit, depth);
        return None;
      }
      WalkTsStep(fs, names, dir, stopDir, limit, depth);
      dir := parent;
      depth := depth + 1;
    }
  }
}

=== FILE: limits.dfy ===
/** The `limit` option of both walks. In `findUp.js` it caps the number of
    matches, in `findUp.ts` the number of parent steps; both test it with
    `>=`, so a limit of zero or below is met from the start. */
module Limits {

  /** The option's value; `Infinite` is the default `Number.POSITIVE_INFINITY`. */
  datatype Limit = Infinite | Finite(n: int)

  /** The source's `count >= limit` test. */
  predicate Reached(limit: Limit, count: int) {
    limit.Finite? && count >= limit.n
  }

  function Min(a: int, b: int): int {
    if a <= b then a else b
  }
}

=== FILE: matcher.dfy ===
/** The per-directory test of the upward search: literal candidate names looked
    up with `locate-path`, or a caller's predicate whose string answer is still
    checked for existence, plus the `findUpStop` sentinel. */
module Matcher {
  import opened Wrappers
  import opened Paths

  /** What testing one directory yields. A predicate returns the same shape:
      `undefined` (NoMatch), a file name (Found) or the `findUpStop` symbol
      (Stop), which is a tag of its own and can never equal a name. */
  datatype MatchResult = NoMatch | Found(name: string) | Stop

  /** The search criterion: a name or list of names (`[name].flat()`), or a
      predicate called with each visited directory. The predicate is a pure,
      total function: one that throws or keeps state is not modelled. */
  datatype Criterion = Names(names: seq<string>) | Predicate(test: Path -> MatchResult)

  /** Index `i` holds the first name of `names` whose entry exists under `cwd`. */
  predicate FirstExisting(fs: set<Path>, names: seq<string>, cwd: Path, i: int) {
    && 0 <= i < |names|
    && Join(cwd, names[i]) in fs
    && forall j :: 0 <= j < i ==> Join(cwd, names[j]) !in fs
  }

  /** `locate-path` (and the candidate loop of `findUp.ts`): the first name, in
      list order, whose entry exists under `cwd`, or None when none exists. */
  function LocatePath(fs: set<Path>, names: seq<string>, cwd: Path): (r: Option<string>)
    ensures r.None? <==> forall i :: 0 <= i < |names| ==> Join(cwd, names[i]) !in fs
    ensures r.Some? ==> exists i :: FirstExisting(fs, names, cwd, i) && names[i] == r.value
    decreases |names|
  {
    if names == [] then None
    else if Join(cwd, names[0]) in fs then
      assert FirstExisting(fs, names, cwd, 0);
      Some(names[0])
    else
      var r := LocatePath(fs, names[1..], cwd);
      assert r.Some? ==> exists i :: FirstExisting(fs, names, cwd, i) && names[i] == r.value by {
        if r.Some? {
          var i :| FirstExisting(fs, names[1..], cwd, i) && names[1..][i] == r.value;
          assert FirstExisting(fs, names, cwd, i + 1);
        }
      }
      r
  }

  /** Conversely, the first existing name is the one `LocatePath` returns: an
      earlier name that exists always wins over a later one. */
  lemma {:induction false} LocatePathIsFirst(fs: set<Path>, names: seq<string>, cwd: Path, i: int)
    requires FirstExisting(fs, names, cwd, i)
    ensures LocatePath(fs, names, cwd) == Some(names[i])
    decreases |names|
  {
    if i > 0 {
      assert FirstExisting(fs, names[1..], cwd, i - 1);
      LocatePathIsFirst(fs, names[1..], cwd, i - 1);
    }
  }

  /** `runMatcher` for one directory. Literal names go through `LocatePath`;
      a predicate's string answer is passed through `LocatePath` again, so a
      name that does not exist in `dir` is no match; a predicate's NoMatch or
      Stop is returned as is. Only a predicate can stop the walk, and every
      name reported exists. */
  function RunMatcher(fs: set<Path>, crit: Criterion, dir: Path): (r: MatchResult)
    ensures r.Found? ==> Join(dir, r.name) in fs
    ensures r.Stop? <==> crit.Predicate? && crit.test(dir).Stop?
  {
    match crit
    case Names(names) =>
      (match LocatePath(fs, names, dir)
       case Some(n) => Found(n)
       case None => NoMatch)
    case Predicate(test) =>
      (match test(dir)
       case Found(n) =>
         (match LocatePath(fs, [n], dir)
          case Some(m) => Found(m)
          case None => NoMatch)
       case other => other)
  }

  /** With literal names the matcher reports the first candidate, in list
      order, that exists in `dir`, and reports no match exactly when none does. */
  lemma RunMatcherNames(fs: set<Path>, names: seq<string>, dir: Path)
    ensures var r := RunMatcher(fs, Names(names), dir);
      && (r.Found? <==> exists i :: 0 <= i < |names| && Join(dir, names[i]) in fs)
      && (r.Found? ==> exists i :: FirstExisting(fs, names, dir, i) && names[i] == r.name)
      && !r.Stop?
  {
  }

  /** A predicate's string answer counts exactly when that name exists in
      `dir`; it is then reported unchanged. */
  lemma RunMatcherPredicate(fs: set<Path>, test: Path -> MatchResult, dir: Path)
    ensures var r := RunMatcher(fs, Predicate(test), dir);
      && (r.Found? <==> test(dir).Found? && Join(dir, test(dir).name) in fs)
      && (r.Found? ==> r.name == test(dir).name)
      && (r.NoMatch? <==> test(dir).NoMatch? || (test(dir).Found? && Join(dir, test(dir).name) !in fs))
  {
  }
}

=== FILE: paths.dfy ===
/** Abstract absolute paths: a filesystem root plus the directory names below it.
    This stands in for the results of Node's `path.resolve`, `path.join`,
    `path.dirname` and `path.parse(..).root`, without separators, `..` or
    drive-letter syntax. */
module Paths {

  /** An absolute, resolved path: `root` is the filesystem root ("/" or a drive),
      `segs` the names from the root down, nearest-to-root first. */
  datatype Path = Path(root: string, segs: seq<string>)

  /** A path as a caller passes it in an option: the empty string "", an
      absolute path, or a path relative to some base directory. */
  datatype PathArg = Empty | Abs(path: Path) | Rel(rel: seq<string>)

  predicate IsRoot(p: Path) {
    p.segs == []
  }

  /** `a` is `p` itself or one of its ancestors. */
  predicate AncestorOrSelf(a: Path, p: Path) {
    a.root == p.root && a.segs <= p.segs
  }

  /** The root of `p`'s filesystem (`path.parse(p).root`). */
  function RootOf(p: Path): (r: Path)
    ensures IsRoot(r) && AncestorOrSelf(r, p)
    ensures forall a :: AncestorOrSelf(a, p) && IsRoot(a) ==> a == r
  {
    Path(p.root, [])
  }

  /** The parent directory (`path.dirname`); the root is its own parent. */
  function Dirname(p: Path): (r: Path)
    ensures r == p <==> IsRoot(p)
    ensures AncestorOrSelf(r, p)
    ensures IsRoot(p) || |r.segs| == |p.segs| - 1
  {
    if IsRoot(p) then p else Path(p.root, p.segs[..|p.segs| - 1])
  }

  /** The last name of a non-root path. */
  function Basename(p: Path): string
    requires !IsRoot(p)
  {
    p.segs[|p.segs| - 1]
  }

  /** `name` inside directory `dir` (`path.join(dir, name)` and
      `path.resolve(dir, name)` for a plain file name). */
  function Join(dir: Path, name: string): Path {
    Path(dir.root, dir.segs + [name])
  }

  /** `Join` places `name` one level below `dir`: the parent of the result is
      `dir` and its last name is `name`. */
  lemma JoinParts(dir: Path, name: string)
    ensures var r := Join(dir, name);
      !IsRoot(r) && Dirname(r) == dir && Basename(r) == name && |r.segs| == |dir.segs| + 1
  {
    assert (dir.segs + [name])[..|dir.segs|] == dir.segs;
  }

  /** Conversely, every non-root path is its basename joined onto its parent,
      so `Join` and the pair (`Dirname`, `Basename`) are inverse to each other. */
  lemma JoinDirnameBasename(p: Path)
    requires !IsRoot(p)
    ensures Join(Dirname(p), Basename(p)) == p
  {
    assert p.segs[..|p.segs| - 1] + [p.segs[|p.segs| - 1]] == p.segs;
  }

  /** `path.resolve(base, arg)`: an absolute argument wins, a relative one is
      appended to `base`, and the empty string stands for `base` itself. */
  function Resolve(base: Path, arg: PathArg): (r: Path)
    ensures arg.Abs? ==> r == arg.path
    ensures arg.Empty? ==> r == base
    ensures arg.Rel? ==> r == Path(base.root, base.segs + arg.rel)
    ensures arg.Rel? ==> AncestorOrSelf(base, r) && |r.segs| == |base.segs| + |arg.rel|
  {
    match arg
    case Empty => base
    case Abs(p) => p
    case Rel(s) => Path(base.root, base.segs + s)
  }

  /** The ancestor `k` levels above `p`. */
  function Ancestor(p: Path, k: nat): (r: Path)
    requires k <= |p.segs|
    ensures AncestorOrSelf(r, p) && |r.segs| == |p.segs| - k
  {
    Path(p.root, p.segs[..|p.segs| - k])
  }

  /** Parent steps from `dir` to the end of its chain: to `stopAt` when that is
      `dir` or an ancestor of it, otherwise all the way to the root. */
  function Steps(dir: Path, stopAt: Path): nat
  {
    if AncestorOrSelf(stopAt, dir) then |dir.segs| - |stopAt.segs| else |dir.segs|
  }

  /** The directories an upward walk from `dir` meets before it halts at the
      boundary `stopAt` (inclusive) or, when `stopAt` is not on the way, at the
      root (inclusive): `dir` first, then each successive parent. */
  function Chain(dir: Path, stopAt: Path): (c: seq<Path>)
    ensures |c| == Steps(dir, stopAt) + 1 && c[0] == dir
    ensures c[|c| - 1] == if AncestorOrSelf(stopAt, dir) then stopAt else RootOf(dir)
    ensures forall i :: 0 <= i < |c| ==> AncestorOrSelf(c[i], dir) && |c[i].segs| == |dir.segs| - i
  {
    var c := seq(Steps(dir, stopAt) + 1, k requires 0 <= k <= Steps(dir, stopAt) => Ancestor(dir, k));
    assert AncestorOrSelf(stopAt, dir) ==> c[|c| - 1].segs == stopAt.segs;
    c
  }

  /** An ancestor of `p` other than `p` is still an ancestor of `p`'s parent. */
  lemma AncestorOfDirname(a: Path, p: Path)
    requires AncestorOrSelf(a, p) && a != p
    ensures !IsRoot(p) && AncestorOrSelf(a, Dirname(p))
  {
    assert a.segs != p.segs;
    assert |a.segs| < |p.segs|;
    assert a.segs <= p.segs[..|p.segs| - 1];
  }

  /** Whatever is not an ancestor of `p` is not an ancestor of its parent either. */
  lemma NotAncestorOfDirname(a: Path, p: Path)
    requires !AncestorOrSelf(a, p)
    ensures !AncestorOrSelf(a, Dirname(p))
  {
  }

  /** The chain read one step at a time: it ends at `dir` when `dir` is the
      boundary or the root, and otherwise continues with the parent's chain.
      This is the loop the walks run, checked against the closed form above. */
  lemma {:induction false} ChainUnfold(dir: Path, stopAt: Path)
    ensures dir == stopAt || IsRoot(dir) ==> Chain(dir, stopAt) == [dir]
    ensures dir != stopAt && !IsRoot(dir) ==> Chain(dir, stopAt) == [dir] + Chain(Dirname(dir), stopAt)
  {
    var c := Chain(dir, stopAt);
    if dir == stopAt {
      assert |c| == 1;
    } else if IsRoot(dir) {
      assert |c| == 1;
    } else {
      var d := Dirname(dir);
      var c' := Chain(d, stopAt);
      if AncestorOrSelf(stopAt, dir) {
        AncestorOfDirname(stopAt, dir);
      } else {
        NotAncestorOfDirname(stopAt, dir);
      }
      assert Steps(d, stopAt) + 1 == Steps(dir, stopAt);
      assert |c| == |[dir] + c'|;
      forall i | 0 <= i < |c|
        ensures c[i] == ([dir] + c')[i]
      {
        if i > 0 {
          assert c'[i - 1].segs == d.segs[..|d.segs| - (i - 1)];
          assert c[i].segs == dir.segs[..|dir.segs| - i];
        }
      }
    }
  }
}

=== FILE: wrappers.dfy ===
/** The optional value of the find-up modules: `None` plays the part of
    JavaScript's `undefined`, both for a missing option and for "not found". */
module Wrappers {

  datatype Option<+T> = None | Some(value: T)
}
